=== FILE: README.md ===
# full_depthimage_to_laserscan: the frame reduction and its cache, in Dafny

This project models the core of the depth-image-to-laser-scan converter of
`full_depthimage_to_laserscan`, following its 16UC1 (millimetre `uint16`)
path, and proves properties of that model. The core has two parts.

- **Conversion cache.** `updateCache` computes five change flags:
  - camera parameters;
  - data type;
  - buffer size;
  - safe limits;
  - minimum range.

  The flags select which tables are rebuilt:
  - the safety-limit image and its per-row limits (`update_limits`);
  - the angular mapping and the range ratios (`update_mapping`);
  - the minimum-depth limits (`update_min_range`);
  - the reduction buffer (`update_buffer`).

  Each rebuild records the configuration values it used.
- **Frame reduction.** `convert_new` handles a band of `scan_height` rows centred on the principal point row `cy`:
  - It copies every sample of the band into the reduction buffer. Each sample is replaced by the sentinel `big_val` unless it lies strictly inside (the column's minimum-depth limit, the row's safety limit).
  - It collapses the buffer in place by repeated halving with an element-wise minimum. An odd leftover row is folded in by a second loop.
  - It scatters each column's minimum into the scan bin given by the index table. A value is kept only when `ratio * depth < max_range`, and it overwrites the bin unless the bin already holds something strictly smaller.

`convert_msg` ties the two parts together:
- It refreshes the cache and fills the scan header.
- It checks `scan_height` against the image height.
- It initialises `width` "no return" ranges.
- It dispatches on the encoding, and fails on an unsupported one.

Modules, one concept each:

| file | module | what it holds |
|---|---|---|
| `wrappers.dfy` | `Wrappers` | `Option` (NaN is `None`) and `Result` (a thrown `runtime_error` is `Failure`) |
| `row_major.dfy` | `RowMajor` | the index `v * w + u` of row `v`, column `u` (stride = width), with its arithmetic lemmas |
| `depth_traits.dfy` | `DepthTraits` | the 16UC1 conversions: `fromMeters` rounds metres to millimetres, `toMeters` scales back, float-to-integer stores truncate |
| `frame_reducer.dfy` | `FrameReducer` | `convert_new` as in-place array methods (filter, halving reduction, scatter), each proved equal to a specification function on sequences, with the lemmas that give those functions their meaning |
| `conversion_cache.dfy` | `ConversionCache` | the `ConversionCache` record, the change flags, the four rebuild stages and `updateCache` as functions on cache values, with the refresh lemmas |
| `scan_spec.dfy` | `ScanSpec` | the result of `convert_msg` as a function (`ScanOf`), its errors, the height check, and the meaning of every output bin |
| `converter.dfy` | `DepthImageToLaserScan` | the converter object as a class: setters, camera model, cache, reduction buffer, `update_*`, both `updateCache`s and `convert_msg` |

The camera model is an external library. Its outputs are modelled as a given `Calibration` value:
- the principal point row;
- the scan's angular extent;
- the bin of each column and its range ratio;
- the y and z components of each pixel's ray.

`fromCameraInfo` stores a calibration and reports whether it differs from the previous one.

The converter object carries one field the source does not have, `cameraPending`. It corrects the camera flag (see Findings): a calibration change that arrives with a frame of an unsupported encoding stays pending until a 16UC1 frame has rebuilt the tables for it. With it, the converter's validity predicate includes the cache invariant that, unless a change is pending, every table is the one the held calibration and the recorded settings give.

## Model

| member | source | states |
|---|---|---|
| FrameReducer.FilteredBandAt | include/full_depthimage_to_laserscan/DepthImageToLaserScan.h:528-541 | a filtered cell equals the raw depth exactly when `depth < row_limit[v]` and `min_depth_limit[u] < depth`, and equals `big_val` otherwise |
| FrameReducer.Min | include/full_depthimage_to_laserscan/DepthImageToLaserScan.h:475-481 | `mymin` is one of its arguments and no larger than either |
| FrameReducer.Filtered | include/full_depthimage_to_laserscan/DepthImageToLaserScan.h:536 | the filtered value is the depth or `big_val`, and a value other than `big_val` lies strictly between the column's minimum-depth limit and the row's safety limit |
| FrameReducer.FilterRow | include/full_depthimage_to_laserscan/DepthImageToLaserScan.h:530-540 | the inner loop writes the filtered values of one image row into the next `w` buffer cells and leaves the cells before them untouched |
| FrameReducer.FilterBand | include/full_depthimage_to_laserscan/DepthImageToLaserScan.h:524-543 | after the nested loops the first `scan_height * w` buffer cells are the filtered band |
| FrameReducer.RowsMinIsLowerBound | include/full_depthimage_to_laserscan/DepthImageToLaserScan.h:547-579 | the column minimum of rows lo..hi is at most every value of that column in those rows |
| FrameReducer.RowsMinIsAttained | include/full_depthimage_to_laserscan/DepthImageToLaserScan.h:547-579 | the column minimum of rows lo..hi is the value of one of those rows |
| FrameReducer.HalfSize | include/full_depthimage_to_laserscan/DepthImageToLaserScan.h:551-555 | `2 * half_size + remainder == region_size`, with `remainder` one row exactly when the row count is odd |
| FrameReducer.FirstPassRowsMin | include/full_depthimage_to_laserscan/DepthImageToLaserScan.h:563-569 | after the first pass, the column minimum over its first k rows is the minimum of the old rows 0..k and half..half+k (out of place; `FoldHalves` shows that the in-place loop, reading cells `u + half_size` it has not yet written, computes this pass) |
| FrameReducer.RemainderPassRowsMin | include/full_depthimage_to_laserscan/DepthImageToLaserScan.h:570-576 | the remainder loop folds the leftover row `2 * half` into row 0, and the column minima of the kept rows gain exactly that row |
| FrameReducer.RemainderPassEmpty | include/full_depthimage_to_laserscan/DepthImageToLaserScan.h:570-576 | with an even row count the remainder loop changes nothing |
| FrameReducer.HalvedEvenKeepsColumnMin | include/full_depthimage_to_laserscan/DepthImageToLaserScan.h:550-578 | one round on 2h rows keeps every column minimum over the remaining h rows |
| FrameReducer.HalvedOddKeepsColumnMin | include/full_depthimage_to_laserscan/DepthImageToLaserScan.h:550-578 | one round on 2h+1 rows keeps every column minimum, the leftover row included |
| FrameReducer.HalvedKeepsColumnMin | include/full_depthimage_to_laserscan/DepthImageToLaserScan.h:547-579 | one halving round keeps, for every column, the minimum over the live rows while `num_rows` drops to `num_rows / 2` |
| FrameReducer.FoldHalves | include/full_depthimage_to_laserscan/DepthImageToLaserScan.h:563-569 | the in-place first loop, reading the buffer it writes, computes exactly the element-wise minimum of the two halves |
| FrameReducer.FoldRemainder | include/full_depthimage_to_laserscan/DepthImageToLaserScan.h:570-576 | the in-place remainder loop computes exactly the fold of the leftover row into the prefix |
| FrameReducer.HalveOnce | include/full_depthimage_to_laserscan/DepthImageToLaserScan.h:550-578 | one round of the while body, both loops, on the array in place |
| FrameReducer.ReduceBand | include/full_depthimage_to_laserscan/DepthImageToLaserScan.h:545-579 | the `while(num_rows>1)` loop terminates, and then `min_depths[u]` is the minimum of column u over all rows of the band, for odd and even row counts |
| FrameReducer.AdmittedRange | include/full_depthimage_to_laserscan/DepthImageToLaserScan.h:583-596 | a column contributes a range exactly when `range_ratio * depth < max_range` |
| FrameReducer.AdmittedRangeMonotone | include/full_depthimage_to_laserscan/DepthImageToLaserScan.h:588-596 | a smaller depth is admitted whenever a larger one is, and gives a range no larger |
| FrameReducer.Place | include/full_depthimage_to_laserscan/DepthImageToLaserScan.h:597-607 | a bin keeps its value when it is strictly smaller than the new range and takes the new range otherwise (ties and NaN included); other bins are unchanged |
| FrameReducer.Scattered | include/full_depthimage_to_laserscan/DepthImageToLaserScan.h:585-609 | the scan after the scatter loop has handled columns 0..k-1; a bin that none of those columns maps to keeps its value (its other properties: `ScatterBinEmpty`, `ScatterBinIsMinimal`, `ScatterBinIsAttained`) |
| FrameReducer.ScatterBinEmpty | include/full_depthimage_to_laserscan/DepthImageToLaserScan.h:585-609 | a bin stays "no return" exactly when no column mapped to it is admitted |
| FrameReducer.ScatterBinIsMinimal | include/full_depthimage_to_laserscan/DepthImageToLaserScan.h:585-609 | a bin holds a range no larger than that of any admitted column mapped to it |
| FrameReducer.ScatterBinIsAttained | include/full_depthimage_to_laserscan/DepthImageToLaserScan.h:585-609 | a filled bin holds the range of one admitted column mapped to it |
| FrameReducer.ScatterBins | include/full_depthimage_to_laserscan/DepthImageToLaserScan.h:585-609 | the scatter loop leaves `ranges` equal to the specified scatter of the reduced columns |
| FrameReducer.BandOffset | include/full_depthimage_to_laserscan/DepthImageToLaserScan.h:500 | the band starts at `cy - scan_height/2` truncated, so it is non-negative when `scan_height/2 <= cy` |
| FrameReducer.ReducedColumnIsLowerBound | include/full_depthimage_to_laserscan/DepthImageToLaserScan.h:528-579 | the reduced value of a column is at most every band sample of that column that passes the filter |
| FrameReducer.ReducedColumnIsAttained | include/full_depthimage_to_laserscan/DepthImageToLaserScan.h:528-579 | the reduced value of a column is `big_val` or a band sample of that column that passes the filter |
| FrameReducer.SentinelNeverAdmitted | include/full_depthimage_to_laserscan/DepthImageToLaserScan.h:515 | `big_val = fromMeters(range_max + 1)` times a ratio of at least 1 is never below `fromMeters(range_max)` |
| FrameReducer.RejectedColumnNeverContributes | include/full_depthimage_to_laserscan/DepthImageToLaserScan.h:515-596 | a column none of whose band samples passes the filter never contributes a range |
| FrameReducer.ContributingColumnIsAdmitted | include/full_depthimage_to_laserscan/DepthImageToLaserScan.h:528-596 | if one filtered sample of a column is admitted, the column's reduced value is admitted, with a range no larger |
| FrameReducer.BandBinEmpty | include/full_depthimage_to_laserscan/DepthImageToLaserScan.h:515-609 | after filter, reduction and scatter, a bin is "no return" exactly when no band sample of a column mapped to it passes the filter and is admitted |
| FrameReducer.BandBinIsAttained | include/full_depthimage_to_laserscan/DepthImageToLaserScan.h:515-609 | a filled bin holds the range of one band sample that passes the filter and is admitted |
| FrameReducer.BandBinIsClosest | include/full_depthimage_to_laserscan/DepthImageToLaserScan.h:515-609 | a bin holds a range no larger than that of any band sample, mapped to it, that passes the filter and is admitted |
| FrameReducer.FilterAndReduce | include/full_depthimage_to_laserscan/DepthImageToLaserScan.h:517-579 | after the filter and the halving loop, `min_depths[0 .. w - 1]` holds the per-column minima of the filtered band |
| FrameReducer.ConvertNew | include/full_depthimage_to_laserscan/DepthImageToLaserScan.h:485-612 | `convert_new` on the arrays leaves `ranges` equal to the scatter of the column minima of the filtered band |
| DepthTraits.Trunc | include/full_depthimage_to_laserscan/DepthImageToLaserScan.h:318 | storing a float into a `uint16` cell rounds toward zero |
| DepthTraits.FromMetersPlusOneMetre | include/full_depthimage_to_laserscan/DepthImageToLaserScan.h:515 | `fromMeters(range_max + 1)` is `fromMeters(range_max) + 1000` |
| ConversionCache.ChangeFlags | src/DepthImageToLaserScan.cpp:101-132 | each flag is set exactly when its recorded value differs from the current one; the data type flag only when a limits image exists |
| ConversionCache.PixelLimitNonNegative | include/full_depthimage_to_laserscan/DepthImageToLaserScan.h:391-405 | with non-negative floor and overhead distances each per-pixel safety limit is non-negative |
| ConversionCache.PixelLimit | include/full_depthimage_to_laserscan/DepthImageToLaserScan.h:391-405 | the safety limit of one pixel, `z * floor_dist / y` below the horizon and `-z * overhead_dist / y` above it, in millimetres and truncated; `PixelLimitNonNegative` is proved about it |
| ConversionCache.LimitPixels | include/full_depthimage_to_laserscan/DepthImageToLaserScan.h:382-409 | the limits image: `width * height` pixel limits, row-major; `DepthImageToLaserScan.ComputeLimits` is proved to compute it with the source's loops |
| ConversionCache.RowLimitsOf | include/full_depthimage_to_laserscan/DepthImageToLaserScan.h:408 | `height` row limits; `ComputeLimits` is proved to compute it, taking each row's last pixel |
| ConversionCache.LimitsRebuilt | include/full_depthimage_to_laserscan/DepthImageToLaserScan.h:342-414 | for 16UC1 a new limits image with the frame's size and encoding holding every pixel's safety limit, row limits that are the limits of each row's last pixel (h:408), the floor and overhead distances recorded, nothing else changed; unsupported encodings change nothing |
| ConversionCache.MappingRebuilt | include/full_depthimage_to_laserscan/DepthImageToLaserScan.h:220-294 | for 16UC1 the indices, ratios and angle limits become the calibration's, nothing else changed; unsupported encodings change nothing |
| ConversionCache.MinDepthLimitIsExact | include/full_depthimage_to_laserscan/DepthImageToLaserScan.h:311-320 | a sample d passes `min_depth_limit[u] < d` exactly when `fromMeters(range_min) < range_ratio[u] * d` |
| ConversionCache.MinDepthLimits | include/full_depthimage_to_laserscan/DepthImageToLaserScan.h:311-319 | `width` minimum-depth limits; `MinDepthLimitIsExact` gives their meaning and `Converter.UpdateMinRange` is proved to compute them with the source's loop |
| ConversionCache.MinRangeRebuilt | include/full_depthimage_to_laserscan/DepthImageToLaserScan.h:296-321 | for 16UC1 the minimum-depth limits become `fromMeters(range_min) / range_ratios[u]`, truncated, for each of the `width` columns, and `range_min` is recorded; nothing else changed; unsupported encodings change nothing |
| ConversionCache.BufferRebuiltAsWritten | include/full_depthimage_to_laserscan/DepthImageToLaserScan.h:323-340 | as written: `scan_height` is recorded for 16UC1 and unsupported encodings alike, the buffer resized to `width * scan_height` only for 16UC1 |
| ConversionCache.BufferRebuilt | include/full_depthimage_to_laserscan/DepthImageToLaserScan.h:323-340 | corrected: for 16UC1 the buffer holds `width * scan_height` cells and that `scan_height` is recorded; unsupported encodings change nothing |
| ConversionCache.UnsupportedFrameKeepsCache | src/DepthImageToLaserScan.cpp:134-156 | corrected: a frame of an unsupported encoding leaves the cache unchanged (as written, h:333 still records `scan_height`: `UnsupportedFrameRecordsScanHeightAsWritten`) |
| ConversionCache.UnsupportedFrameRecordsScanHeightAsWritten | include/full_depthimage_to_laserscan/DepthImageToLaserScan.h:323-340 | as written, a frame of an unsupported encoding changes only the recorded `scan_height`, and only when a buffer flag fires |
| ConversionCache.RefreshMakesReady | src/DepthImageToLaserScan.cpp:99-160 | after a 16UC1 refresh every table has the frame's size, the buffer is `width * scan_height`, and all current settings are recorded; after a calibration change, or from a consistent cache, the tables equal a build from scratch (otherwise it can fail: `StaleMappingAfterUnsupportedFrame`) |
| ConversionCache.RefreshIdempotent | src/DepthImageToLaserScan.cpp:101-156 | a second refresh with no new calibration and the same settings and encoding sees all five flags false and changes nothing |
| ConversionCache.RefreshRebuildsOnlyStale | src/DepthImageToLaserScan.cpp:134-156 | without a calibration change the mapping is kept, and each other table is kept unless its own setting changed |
| ConversionCache.RefreshFollowsFlags | src/DepthImageToLaserScan.cpp:134-156 | limits are rebuilt iff camera, limits or encoding changed; mapping iff camera; minimum depths iff camera, `range_min` or encoding, and from the new ratios after a camera change; buffer iff camera, `scan_height` or encoding; otherwise each keeps its value |
| ConversionCache.Refresh | src/DepthImageToLaserScan.cpp:99-160 | corrected `updateCache` on cache values: flags, then limits, mapping, minimum range and (corrected) buffer stages in the source's order; its properties are `RefreshFollowsFlags`, `RefreshMakesReady`, `RefreshIdempotent`, `RefreshRebuildsOnlyStale`, `UnsupportedFrameKeepsCache` |
| ConversionCache.RefreshAsWritten | src/DepthImageToLaserScan.cpp:99-160 | `updateCache` as written, with the buffer stage of h:323-340; on a 16UC1 frame it is the corrected `Refresh`, and `StaleBufferAfterUnsupportedFrame` and `UnsupportedFrameRecordsScanHeightAsWritten` give where it differs |
| ConversionCache.StaleBufferAfterUnsupportedFrame | include/full_depthimage_to_laserscan/DepthImageToLaserScan.h:323-340 | as written, a `scan_height` increase seen first with an unsupported frame leaves the buffer smaller than `width * scan_height` after the next 16UC1 frame |
| ConversionCache.BufferFollowsScanHeight | include/full_depthimage_to_laserscan/DepthImageToLaserScan.h:323-340 | corrected, the buffer is `width * scan_height` after any such sequence |
| ConversionCache.StaleMappingAfterUnsupportedFrame | src/DepthImageToLaserScan.cpp:108-144 | as written, a calibration change that arrives with a frame of an unsupported encoding is lost: the next 16UC1 frame finds ready-looking tables that keep the old calibration's bins and are not consistent with the new one |
| ConversionCache.UnbuiltMappingAfterUnsupportedFrame | src/DepthImageToLaserScan.cpp:108-144 | as written, when the first frame with a calibration has an unsupported encoding nothing is built, and the next 16UC1 frame sets neither the camera nor the data type flag, so the mapping stage never runs and `indices` and `range_ratios` stay empty; the safe-limits and minimum-range flags of that frame are set exactly when a distance or `range_min` is non-zero |
| ConversionCache.PendingCameraChangeRebuildsTables | src/DepthImageToLaserScan.cpp:108-144 | with the change kept pending, the next 16UC1 frame rebuilds every table from the new calibration, whatever the cache held |
| ScanSpec.BandFits | src/DepthImageToLaserScan.cpp:184-188 | the corrected height check: when it passes, the band is non-empty and rows offset..offset+scan_height lie inside the image |
| ScanSpec.HeightCheckAsWritten | src/DepthImageToLaserScan.cpp:184 | the check as written, `!(scan_height/2 > cy \|\| scan_height/2 > height - cy)`; `OddBandOverrunAsWritten`, `ZeroHeightPassesAsWritten`, `EvenHeightCheckIsExact` and `OddHeightCheckGap` relate it to `BandFits` |
| ScanSpec.OddBandOverrunAsWritten | src/DepthImageToLaserScan.cpp:184-188 | the check as written passes `scan_height = 3`, `cy = 2`, `height = 3`, whose band runs one row past the image |
| ScanSpec.ZeroHeightPassesAsWritten | src/DepthImageToLaserScan.cpp:184-188 | the check as written passes `scan_height = 0`, an empty band |
| ScanSpec.EvenHeightCheckIsExact | src/DepthImageToLaserScan.cpp:184-188 | for an even positive `scan_height` the check as written and the corrected one agree |
| ScanSpec.OddHeightCheckGap | src/DepthImageToLaserScan.cpp:184-188 | for an odd `scan_height` the two checks disagree exactly when `cy == height - scan_height/2` |
| ScanSpec.NaNs | src/DepthImageToLaserScan.cpp:190-192 | the ranges start as exactly `width` "no return" values |
| ScanSpec.AngleIncrementSpansScan | src/DepthImageToLaserScan.cpp:175-177 | `angle_increment * (width - 1) == angle_max - angle_min` |
| ScanSpec.ScanHeader | src/DepthImageToLaserScan.cpp:170-181 | the scan fields filled before the ranges: frame id (the output frame when set), cached angle limits, their increment, zero time increment, scan time, range limits; `AngleIncrementSpansScan` is proved about it |
| ScanSpec.ScanOf | src/DepthImageToLaserScan.cpp:162-233 | with the corrected height check (`BandFits`): a failing check gives the height error; an unsupported encoding that passes it gives the encoding error; a 16UC1 frame that passes it gives a scan whose ranges are `FrameRanges` of the frame; a scan exists only for 16UC1 and has `width` ranges |
| ScanSpec.FrameRangesScatterBand | include/full_depthimage_to_laserscan/DepthImageToLaserScan.h:485-612 | when the corrected check passes and the tables are ready, the band at `cy - scan_height/2` lies inside the frame and the row-limit table, every column has a ratio of at least 1 and a bin below `width`, and the initial bins are all "no return": what `convert_new` needs to run without reading out of bounds |
| ScanSpec.ScanBinIsNaNExactly | include/full_depthimage_to_laserscan/DepthImageToLaserScan.h:515-609 | a scan bin is "no return" iff no pixel of the band in a column mapped to it passes both limits and lies below `max_range` |
| ScanSpec.ScanBinIsAttained | include/full_depthimage_to_laserscan/DepthImageToLaserScan.h:515-609 | a filled scan bin holds the range of such a pixel |
| ScanSpec.ScanBinIsClosest | include/full_depthimage_to_laserscan/DepthImageToLaserScan.h:515-609 | a filled scan bin holds the closest range among such pixels |
| DepthImageToLaserScan.ComputeLimits | include/full_depthimage_to_laserscan/DepthImageToLaserScan.h:382-409 | the nested loops fill the limits image pixel by pixel, and set each row limit to the value of that row's last column |
| DepthImageToLaserScan.Converter.constructor | src/DepthImageToLaserScan.cpp:38-39 | a converter starts with no camera model, no pending calibration change and an empty cache |
| DepthImageToLaserScan.Converter.SetScanTime | src/DepthImageToLaserScan.cpp:235-237 | stores `scan_time` and changes nothing else |
| DepthImageToLaserScan.Converter.SetRangeLimits | src/DepthImageToLaserScan.cpp:239-242 | stores `range_min` and `range_max` and changes nothing else, so no table is recomputed |
| DepthImageToLaserScan.Converter.SetScanHeight | src/DepthImageToLaserScan.cpp:244-246 | stores `scan_height` and changes nothing else |
| DepthImageToLaserScan.Converter.SetOutputFrame | src/DepthImageToLaserScan.cpp:248-250 | stores the output frame id and changes nothing else |
| DepthImageToLaserScan.Converter.SetFilteringLimits | src/DepthImageToLaserScan.cpp:252-256 | stores the floor and overhead distances and changes nothing else |
| DepthImageToLaserScan.Converter.FromCameraInfo | src/DepthImageToLaserScan.cpp:108-112 | the camera model takes the calibration, and a change is reported exactly when it differs from the previous one |
| DepthImageToLaserScan.Converter.UpdateLimits | include/full_depthimage_to_laserscan/DepthImageToLaserScan.h:342-414 | the cache becomes `LimitsRebuilt` of the old cache with the current floor and overhead distances |
| DepthImageToLaserScan.Converter.UpdateMapping | include/full_depthimage_to_laserscan/DepthImageToLaserScan.h:220-294 | the cache becomes `MappingRebuilt` of the old cache |
| DepthImageToLaserScan.Converter.UpdateMinRange | include/full_depthimage_to_laserscan/DepthImageToLaserScan.h:296-321 | the cache becomes `MinRangeRebuilt` of the old cache with the current `range_min` |
| DepthImageToLaserScan.Converter.UpdateBuffer | include/full_depthimage_to_laserscan/DepthImageToLaserScan.h:323-340 | corrected (`BufferRebuilt`): for 16UC1 a fresh buffer of `width * scan_height` cells, recorded in the cache; unsupported encodings leave buffer and cache alone |
| DepthImageToLaserScan.Converter.RebuildStale | src/DepthImageToLaserScan.cpp:114-156 | the four stages, each run when one of its flags is set, leave the cache `Refresh` of the old one, with the buffer sized to match |
| DepthImageToLaserScan.Converter.UpdateCache | src/DepthImageToLaserScan.cpp:99-160 | corrected (`Refresh`, whose buffer stage is `BufferRebuilt`, and a camera flag that stays pending across frames of unsupported encodings): the camera model takes a given calibration; the cache becomes `Refresh` of the old one with the current settings; a 16UC1 frame leaves every table consistent with the held calibration; the object stays valid, and validity includes that consistency whenever no change is pending |
| DepthImageToLaserScan.Converter.UpdateCacheFromLimits | src/DepthImageToLaserScan.cpp:88-97 | corrected (pending camera flag): without a cached limits image nothing changes; otherwise the cache is refreshed against that image, with a pending calibration change as the camera flag, and ends consistent with the held calibration |
| DepthImageToLaserScan.Converter.ConvertMsg | src/DepthImageToLaserScan.cpp:162-233 | corrected (`Refresh`, the pending camera flag and the `BandFits` check): refreshes the cache, so that for a 16UC1 frame every table is consistent with the given calibration, returns the limits image, and returns exactly `ScanOf` of the frame: the height error, the encoding error, or the scan `convert_new` fills |

## Left out

- The 32FC1 (float) path. Float geometry and NaN/Inf semantics are out of scope. Every cache stage (`LimitsRebuilt`, `MappingRebuilt`, `MinRangeRebuilt`, `BufferRebuilt`, `BufferRebuiltAsWritten`), every converter operation that takes a frame, and `ScanOf` require `encoding != Float32`. In the source a 32FC1 frame rebuilds every table with float samples (h:226-229, h:302-305, h:329-332, h:348-351); the model promises nothing for such a frame. Only the 16UC1 path and unsupported encodings are modelled.
- Floating point. Ratios, distances, angles and ranges are `real`. A float-to-`uint16` store is truncation toward zero (`DepthTraits.Trunc`). The out-of-range narrowing of a too-large value into `uint16` is not modelled: depths are unbounded integers.
- The camera model (`CleanCameraModel`, `fromCameraInfo`, `init`, `rectifyPoint`, `projectPixelTo3dRay`). It is a foreign library, and its outputs are the input `Calibration`. `update_mapping`'s `atan2`/`acos`/`sqrt` geometry (h:248-289) and `angle_between_rays`/`magnitude_of_ray` (cpp:44-53) are therefore not computed: the mapping stage copies the calibration's indices, ratios and angle limits.
- The calibration is required to give column bins below `width` and ratios of at least 1, which the geometry gives for a forward-looking camera. It is also required to give non-zero ray y components. For rays of the same camera model as `cy` that excludes an integer `cy`: there the row `v == cy` has `y = 0`, h:399 divides by it, and the source stores `-inf` or NaN into a `uint16`, whose result is undefined. The model does not tie `cy` to the rays, so the height check (Findings) is still modelled for an integer `cy`.
- FrameReducer.BigVal: the sentinel `fromMeters(range_max + 1)` is an unbounded integer. In the source it is a `uint16` (h:515), which cannot hold it once `range_max` exceeds about 64.535 m; that conversion is undefined. `FrameReducer.SentinelNeverAdmitted`, `FrameReducer.RejectedColumnNeverContributes`, `FrameReducer.BandBinEmpty`, `FrameReducer.BandBinIsAttained`, `ScanSpec.ScanBinIsNaNExactly` and `ScanSpec.ScanBinIsAttained` therefore require `IsU16(BigVal(range_max))`. `ScanSpec.ScanOf` and `Converter.ConvertMsg` keep the unbounded sentinel for larger `range_max`, where they do not match the source.
- ConversionCache.PixelLimit: the safety limit is an unbounded integer. For rows near `cy`, where `y` is small, the limit far exceeds 65535 (for `y = 1/525`, `z = 1`, a floor distance of 0.3 m it is 157500), and those are the rows of the band. The source stores it into a `uint16` (h:406, with its own TODO at h:403), which is undefined out of range. The model keeps the unbounded value and compares each depth of such a row with it.
- `depth_traits.h` is not part of this model. `fromMeters` (round to millimetres) and `toMeters` (millimetres to metres) follow the library's 16UC1 traits.
- ROS plumbing:
  - the message header and stamp;
  - `step` and `is_bigendian` of the limits image;
  - `boost` pointers;
  - `ROS_INFO_STREAM` logging.

  The row stride is taken to be the width.
- `MultitypeVector`: its `reinterpret_cast` byte buffer is a typed array, and `resize` allocates a fresh array of the new size. The model does not keep old contents, because every caller overwrites them before reading.
- `ConversionCache.range_max` is never read or written by the source and is not modelled. Fields the constructor leaves uninitialised start at zero.
- `convert_old`, `use_point_old` and `use_point_new` (cpp:55-86) are not modelled. The only call site is commented out (cpp:194-214).
- One converter object serves one image geometry, `width >= 2` (the angle increment divides by `width - 1`). A width change is not one of the source's change flags either.
- DepthImageToLaserScan.Converter.SetScanHeight: requires a non-negative `scan_height`, because the model keeps it as a `nat`. The source takes an `int`.
- DepthImageToLaserScan.Converter.ConvertMsg: runs the corrected camera flag (`cameraPending`, see Findings), not cpp:108-112 as written. As written, a calibration change that arrives with a frame of an unsupported encoding is lost; the as-written behaviour is `ConversionCache.StaleMappingAfterUnsupportedFrame` and `ConversionCache.UnbuiltMappingAfterUnsupportedFrame`.
- DepthImageToLaserScan.Converter.UpdateCache: runs the corrected camera flag, as ConvertMsg does. It also runs the corrected buffer stage (`BufferRebuilt`), not h:333 as written; the as-written behaviour is `ConversionCache.RefreshAsWritten`.
- DepthImageToLaserScan.Converter.UpdateCacheFromLimits: passes a pending calibration change as the camera flag, as the corrected UpdateCache does.
- DepthImageToLaserScan.Converter.UpdateBuffer: models the corrected stage, recording `scan_height` only with a resize; as written (h:333) it is `ConversionCache.BufferRebuiltAsWritten`.
- DepthImageToLaserScan.Converter.ConvertMsg: gates on the corrected height check `ScanSpec.BandFits`, not the check of cpp:184-188 as written (`ScanSpec.HeightCheckAsWritten`); the two differ only for `scan_height = 0` and for an odd `scan_height` whose band ends one row past the image (see Findings).
- ScanSpec.ScanOf: uses the corrected height check `BandFits`. Ranges are `Option<real>` and are compared as the source's `float`s would be. `toMeters(raw_range)` takes the truncated 16-bit value of `raw_range`, so a range is `trunc(ratio * depth) * 0.001`.
- The `CalibrationUnavailable` error has no counterpart in the source, which does not check for a missing calibration. The model makes a calibration an argument of `convert_msg`.
- The source keeps the existing bin value only when it is strictly smaller than the new one. An equal new value, or any value over NaN, is written. The model follows the source (`FrameReducer.Place`); both readings leave the same value in the bin.

## Findings

| source | as written | input that shows it | evidently intended | confidence | as-written member | corrected member |
|---|---|---|---|---|---|---|
| src/DepthImageToLaserScan.cpp:184-188 | the height check compares `scan_height/2` (integer halving) with `cy` and `height - cy`; for an odd `scan_height` the band `convert_new` reads (h:500) starts at `cy - scan_height/2` and has `scan_height` rows | `scan_height = 3`, `cy = 2.0`, `height = 3`: the check passes, the band is rows 1..3, and row 3 does not exist; the gap needs an integer `cy` (`OddHeightCheckGap`: exactly `cy == height - scan_height/2`), and this row concerns the height check alone | reject every `scan_height` whose band leaves the image | not executed | ScanSpec.HeightCheckAsWritten, ScanSpec.OddBandOverrunAsWritten, ScanSpec.OddHeightCheckGap | ScanSpec.BandFits, ScanSpec.EvenHeightCheckIsExact |
| src/DepthImageToLaserScan.cpp:184-188 | `scan_height = 0` passes the check | `scan_height = 0`, any `0 <= cy <= height`: `convert_new` then reads `min_depths[u]` of an empty buffer | reject an empty band | not executed | ScanSpec.HeightCheckAsWritten, ScanSpec.ZeroHeightPassesAsWritten | ScanSpec.BandFits |
| include/full_depthimage_to_laserscan/DepthImageToLaserScan.h:323-340 | `update_buffer` records `cache_.scan_height` (:333) even when the encoding is unsupported and nothing was resized | buffer for `scan_height` 4, then `set_scan_height(8)`, a frame of encoding `8UC1`, then a 16UC1 frame: no flag fires and `convert_new` writes `8 * width` cells into a buffer of `4 * width` | record `scan_height` only together with a resize | not executed | ConversionCache.BufferRebuiltAsWritten, ConversionCache.RefreshAsWritten, ConversionCache.StaleBufferAfterUnsupportedFrame, ConversionCache.UnsupportedFrameRecordsScanHeightAsWritten | ConversionCache.BufferRebuilt, ConversionCache.Refresh, ConversionCache.BufferFollowsScanHeight |
| src/DepthImageToLaserScan.cpp:108-144 | the camera flag is set only by the frame whose calibration differs from the stored one; for a frame of an unsupported encoding every stage is a no-op (h:220-230), so the change is lost | tables built for `cal1`, then a frame of encoding `8UC1` with `cal2` (different bins), then a 16UC1 frame with `cal2`: no flag fires and `convert_new` scatters with `cal1`'s bins and ratios but `cal2`'s `cy` | keep the calibration change pending until a supported frame has rebuilt the tables | not executed | ConversionCache.StaleMappingAfterUnsupportedFrame | ConversionCache.PendingCameraChangeRebuildsTables, DepthImageToLaserScan.Converter.UpdateCache |
| src/DepthImageToLaserScan.cpp:108-144 | the same loss on a fresh converter: the mapping is never built | first frame of encoding `8UC1` with a calibration, then a 16UC1 frame with the same one: `update_mapping` never runs, so `indices` and `range_ratios` stay empty; with the usual non-zero settings `update_limits` builds the limits image and `update_min_range` reads `range_ratios[u]` of the empty mapping (h:317), and `convert_new` reads `indices[u]` of the empty table | as above | not executed | ConversionCache.UnbuiltMappingAfterUnsupportedFrame | ConversionCache.PendingCameraChangeRebuildsTables, DepthImageToLaserScan.Converter.ConvertMsg |

=== FILE: conversion_cache.dfy ===
/**
 * The conversion cache of DepthImageToLaserScan: the tables derived from
 * the camera calibration and the converter's parameters (per-pixel safety
 * limits and their last-column row limits, the column-to-bin mapping, the
 * per-column minimum-depth limits, the size of the reduction buffer), the
 * five change flags that decide which tables are stale, and the rebuild
 * order of updateCache. Everything here is a value; the converter class
 * holds one Cache and replaces it. The 32FC1 path is not modelled: every
 * stage requires a frame of another encoding.
 */
module ConversionCache {
  import opened Wrappers
  import opened RowMajor
  import DepthTraits

  /**
   * The encodings convert_msg distinguishes: "16UC1", "32FC1", and any other
   * name. The name of an unsupported encoding is only reported in the error;
   * it is never compared, and it stands for a name other than those two.
   */
  datatype Encoding = Mono16 | Float32 | Unsupported(name: string)

  /** A depth image (or the cached limits image), rows w samples apart. */
  datatype Image = Image(frameId: string, width: nat, height: nat, encoding: Encoding, data: seq<int>)

  /**
   * What the camera model contributes, given rather than computed: the
   * principal point row cy, the angular extent of the scan, the bin of each
   * column, the range ratio sqrt(x^2 + 1) of each column, and the y and z
   * components of the ray through each pixel (row-major).
   */
  datatype Calibration = Calibration(cy: real, angleMin: real, angleMax: real,
                                     indices: seq<nat>, ratios: seq<real>,
                                     rayY: seq<real>, rayZ: seq<real>)

  /** The calibration describes a w x h image: one bin per column inside the scan, ratios at least 1, no horizontal ray. */
  predicate Fits(cal: Calibration, w: nat, h: nat) {
    && |cal.indices| == w && (forall u | 0 <= u < w :: cal.indices[u] < w)
    && |cal.ratios| == w && (forall u | 0 <= u < w :: cal.ratios[u] >= 1.0)
    && |cal.rayY| == w * h && |cal.rayZ| == w * h
    && (forall i | 0 <= i < w * h :: cal.rayY[i] != 0.0)
  }

  /** The converter's parameters, as the setters leave them. */
  datatype Settings = Settings(rangeMin: real, rangeMax: real, scanHeight: nat, floorDist: real, overheadDist: real)

  /**
   * ConversionCache. The source's range_max field is never read or written
   * and is not modelled; bufferCells is the size of min_depths_buffer.
   */
  datatype Cache = Cache(floorDist: real, overheadDist: real, angleMin: real, angleMax: real,
                         rangeMin: real, scanHeight: int, limits: Option<Image>,
                         indices: seq<nat>, rangeRatios: seq<real>,
                         rowLimits: seq<int>, minDepthLimits: seq<int>, bufferCells: nat)

  /** The cache before any frame: no limits image and empty tables. */
  function EmptyCache(): (c: Cache)
    ensures c.limits.None? && c.bufferCells == 0
  {
    Cache(0.0, 0.0, 0.0, 0.0, 0.0, 0, None, [], [], [], [], 0)
  }

  /** The five flags of updateCache. */
  datatype Flags = Flags(cameraParams: bool, dataType: bool, bufferSize: bool, safeLimits: bool, rangeMin: bool)

  /**
   * The flags for a frame: the data type changed only when a limits image
   * exists and has another encoding; the other flags compare the settings
   * with the values the cache last recorded.
   */
  function ChangeFlags(c: Cache, cameraChanged: bool, frame: Image, s: Settings): (f: Flags)
    ensures f.dataType <==> c.limits.Some? && frame.encoding != c.limits.value.encoding
    ensures f.bufferSize <==> s.scanHeight != c.scanHeight
    ensures f.safeLimits <==> s.floorDist != c.floorDist || s.overheadDist != c.overheadDist
    ensures f.rangeMin <==> s.rangeMin != c.rangeMin
    ensures f.cameraParams == cameraChanged
  {
    Flags(cameraChanged,
          c.limits.Some? && frame.encoding != c.limits.value.encoding,
          s.scanHeight != c.scanHeight,
          s.floorDist != c.floorDist || s.overheadDist != c.overheadDist,
          s.rangeMin != c.rangeMin)
  }

  // ---------------------------------------------------------------------------
  // update_limits
  // ---------------------------------------------------------------------------

  /**
   * The safety limit of one pixel in native units: the depth at which its
   * ray meets the floor (ray pointing down, y > 0) or the ceiling, scaled by
   * fromMeters(1) = 1000 and truncated by the store into a 16-bit sample.
   */
  function PixelLimit(y: real, z: real, floorDist: real, overheadDist: real): int
    requires y != 0.0
  {
    var ratio := if y > 0.0 then floorDist / y else -overheadDist / y;
    DepthTraits.Trunc(z * ratio * 1000.0)
  }

  /** With positive floor and overhead distances and a forward ray, every safety limit is a distance (non-negative). */
  lemma PixelLimitNonNegative(y: real, z: real, floorDist: real, overheadDist: real)
    requires y != 0.0 && 0.0 <= z && 0.0 <= floorDist && 0.0 <= overheadDist
    ensures 0 <= PixelLimit(y, z, floorDist, overheadDist)
  {
    var ratio := if y > 0.0 then floorDist / y else -overheadDist / y;
    if y > 0.0 {
      assert ratio * y == floorDist;
    } else {
      assert ratio * -y == overheadDist;
    }
    assert 0.0 <= ratio;
    assert 0.0 <= z * ratio;
  }

  /** The data of the limits image: one safety limit per pixel. */
  function LimitPixels(cal: Calibration, w: nat, h: nat, floorDist: real, overheadDist: real): (r: seq<int>)
    requires Fits(cal, w, h)
    ensures |r| == w * h
  {
    seq(w * h, i requires 0 <= i < w * h => PixelLimit(cal.rayY[i], cal.rayZ[i], floorDist, overheadDist))
  }

  /** row_limits: the safety limit of each row is the one of its last pixel. */
  function RowLimitsOf(pixels: seq<int>, w: nat, h: nat): (r: seq<int>)
    requires 1 <= w && |pixels| == w * h
    ensures |r| == h
  {
    seq(h, v requires 0 <= v < h =>
      assert v * w + (w - 1) < |pixels| by { CellBound(v, h, w, w - 1); assert h * w == w * h; }
      pixels[v * w + (w - 1)])
  }

  /** update_limits: for a 16UC1 frame, a new limits image, its row limits, and the distances they were built with. */
  function LimitsRebuilt(c: Cache, cal: Calibration, frame: Image, s: Settings): (r: Cache)
    requires 1 <= frame.width && Fits(cal, frame.width, frame.height) && frame.encoding != Float32
    ensures frame.encoding.Unsupported? ==> r == c
    ensures frame.encoding == Mono16 ==>
              && r.limits == Some(Image(frame.frameId, frame.width, frame.height, Mono16,
                                        LimitPixels(cal, frame.width, frame.height, s.floorDist, s.overheadDist)))
              && r.rowLimits == RowLimitsOf(LimitPixels(cal, frame.width, frame.height, s.floorDist, s.overheadDist),
                                            frame.width, frame.height)
              && r.floorDist == s.floorDist && r.overheadDist == s.overheadDist
              && r.(limits := c.limits, rowLimits := c.rowLimits, floorDist := c.floorDist, overheadDist := c.overheadDist) == c
  {
    if frame.encoding == Mono16 then
      var pixels := LimitPixels(cal, frame.width, frame.height, s.floorDist, s.overheadDist);
      c.(limits := Some(Image(frame.frameId, frame.width, frame.height, Mono16, pixels)),
         rowLimits := RowLimitsOf(pixels, frame.width, frame.height),
         floorDist := s.floorDist, overheadDist := s.overheadDist)
    else c
  }

  // ---------------------------------------------------------------------------
  // update_mapping
  // ---------------------------------------------------------------------------

  /** update_mapping: for a 16UC1 frame, the scan extent, the column-to-bin indices and the range ratios of the calibration. */
  function MappingRebuilt(c: Cache, cal: Calibration, frame: Image): (r: Cache)
    requires frame.encoding != Float32
    ensures frame.encoding.Unsupported? ==> r == c
    ensures frame.encoding == Mono16 ==>
              && r.indices == cal.indices && r.rangeRatios == cal.ratios
              && r.angleMin == cal.angleMin && r.angleMax == cal.angleMax
              && r.(indices := c.indices, rangeRatios := c.rangeRatios, angleMin := c.angleMin, angleMax := c.angleMax) == c
  {
    if frame.encoding == Mono16 then
      c.(angleMin := cal.angleMin, angleMax := cal.angleMax, indices := cal.indices, rangeRatios := cal.ratios)
    else c
  }

  // ---------------------------------------------------------------------------
  // update_min_range
  // ---------------------------------------------------------------------------

  /** The minimum-depth limit of each column: fromMeters(range_min) divided by the column's ratio, truncated. */
  function MinDepthLimits(ratios: seq<real>, w: nat, rangeMin: real): (r: seq<int>)
    requires w <= |ratios| && forall u | 0 <= u < w :: ratios[u] >= 1.0
    ensures |r| == w
  {
    seq(w, u requires 0 <= u < w => DepthTraits.Trunc(DepthTraits.FromMeters(rangeMin) as real / ratios[u]))
  }

  /**
   * The minimum-depth limit is exact: a sample d of the column passes
   * (limit < d) if and only if its raw range ratio * d exceeds
   * fromMeters(range_min).
   */
  lemma MinDepthLimitIsExact(ratio: real, rangeMin: real, d: int)
    requires ratio >= 1.0 && 0.0 <= rangeMin
    ensures DepthTraits.Trunc(DepthTraits.FromMeters(rangeMin) as real / ratio) < d
        <==> (DepthTraits.FromMeters(rangeMin) as real) < ratio * d as real
  {
    var m := DepthTraits.FromMeters(rangeMin) as real;
    assert 0.0 <= m;
    var x := m / ratio;
    assert x * ratio == m;
    assert 0.0 <= x;
    var t := DepthTraits.Trunc(x);
    if t < d {
      assert x < d as real;
      assert x * ratio < d as real * ratio;
    } else {
      assert d as real <= x;
      assert d as real * ratio <= x * ratio;
    }
  }

  /** update_min_range: for a 16UC1 frame, fresh minimum-depth limits from the cached ratios, and the range_min they use. */
  function MinRangeRebuilt(c: Cache, frame: Image, s: Settings): (r: Cache)
    requires frame.encoding != Float32
    requires frame.encoding == Mono16 ==>
               frame.width <= |c.rangeRatios| && forall u | 0 <= u < frame.width :: c.rangeRatios[u] >= 1.0
    ensures frame.encoding.Unsupported? ==> r == c
    ensures frame.encoding == Mono16 ==>
              && r.minDepthLimits == MinDepthLimits(c.rangeRatios, frame.width, s.rangeMin) && r.rangeMin == s.rangeMin
              && r.(minDepthLimits := c.minDepthLimits, rangeMin := c.rangeMin) == c
  {
    if frame.encoding == Mono16 then
      c.(minDepthLimits := MinDepthLimits(c.rangeRatios, frame.width, s.rangeMin), rangeMin := s.rangeMin)
    else c
  }

  // ---------------------------------------------------------------------------
  // update_buffer
  // ---------------------------------------------------------------------------

  /** update_buffer as the source writes it: scan_height is recorded for every encoding, the buffer resized only for 16UC1. */
  function BufferRebuiltAsWritten(c: Cache, frame: Image, s: Settings): (r: Cache)
    requires frame.encoding != Float32
    ensures r.scanHeight == s.scanHeight
    ensures frame.encoding.Unsupported? ==> r.bufferCells == c.bufferCells
    ensures frame.encoding == Mono16 ==> r.bufferCells == frame.width * s.scanHeight
    ensures r.(scanHeight := c.scanHeight, bufferCells := c.bufferCells) == c
  {
    if frame.encoding == Mono16 then c.(bufferCells := frame.width * s.scanHeight, scanHeight := s.scanHeight)
    else c.(scanHeight := s.scanHeight)
  }

  /** update_buffer corrected: scan_height is recorded together with the buffer it sizes, so the two never disagree. */
  function BufferRebuilt(c: Cache, frame: Image, s: Settings): (r: Cache)
    requires frame.encoding != Float32
    ensures frame.encoding.Unsupported? ==> r == c
    ensures frame.encoding == Mono16 ==>
              && r.scanHeight == s.scanHeight && r.bufferCells == frame.width * s.scanHeight
              && r.(scanHeight := c.scanHeight, bufferCells := c.bufferCells) == c
  {
    if frame.encoding == Mono16 then c.(bufferCells := frame.width * s.scanHeight, scanHeight := s.scanHeight)
    else c
  }

  // ---------------------------------------------------------------------------
  // updateCache
  // ---------------------------------------------------------------------------

  /** Every table convert_new reads, except the reduction buffer, is there and sized for a w x h 16UC1 frame. */
  predicate TablesReady(c: Cache, w: nat, h: nat) {
    && c.limits.Some? && c.limits.value.encoding == Mono16
    && c.limits.value.width == w && c.limits.value.height == h
    && |c.indices| == w && (forall u | 0 <= u < w :: c.indices[u] < w)
    && |c.rangeRatios| == w && (forall u | 0 <= u < w :: c.rangeRatios[u] >= 1.0)
    && |c.rowLimits| == h && |c.minDepthLimits| == w
  }

  /** The tables are ready and the reduction buffer holds w cells per scan row. */
  predicate Ready(c: Cache, w: nat, h: nat) {
    TablesReady(c, w, h) && 0 <= c.scanHeight && c.bufferCells == w * c.scanHeight
  }

  /**
   * The tables are exactly those a build from scratch with this calibration
   * and the values the cache recorded would give.
   */
  predicate Consistent(c: Cache, cal: Calibration, w: nat, h: nat) {
    && 1 <= w && Fits(cal, w, h) && Ready(c, w, h)
    && c.limits.value.data == LimitPixels(cal, w, h, c.floorDist, c.overheadDist)
    && c.rowLimits == RowLimitsOf(c.limits.value.data, w, h)
    && c.indices == cal.indices && c.rangeRatios == cal.ratios
    && c.angleMin == cal.angleMin && c.angleMax == cal.angleMax
    && c.minDepthLimits == MinDepthLimits(cal.ratios, w, c.rangeMin)
  }

  /** What updateCache needs of its inputs; a 16UC1 frame needs tables to start from or a new calibration to build them. */
  predicate CanRefresh(c: Cache, cal: Calibration, cameraChanged: bool, frame: Image) {
    && 1 <= frame.width && Fits(cal, frame.width, frame.height)
    && frame.encoding != Float32
    && (frame.encoding == Mono16 ==> cameraChanged || TablesReady(c, frame.width, frame.height))
  }

  /** The limits, mapping and minimum-range stages of updateCache, in the source's order. */
  function TablesRefreshed(c: Cache, cal: Calibration, cameraChanged: bool, frame: Image, s: Settings): (r: Cache)
    requires CanRefresh(c, cal, cameraChanged, frame)
    ensures frame.encoding == Mono16 ==>
              |r.indices| == frame.width && |r.rangeRatios| == frame.width && |r.minDepthLimits| == frame.width
  {
    var f := ChangeFlags(c, cameraChanged, frame, s);
    var c1 := if f.cameraParams || f.safeLimits || f.dataType then LimitsRebuilt(c, cal, frame, s) else c;
    var c2 := if f.cameraParams then MappingRebuilt(c1, cal, frame) else c1;
    if f.cameraParams || f.rangeMin || f.dataType then MinRangeRebuilt(c2, frame, s) else c2
  }

  /** updateCache, with the corrected buffer stage. */
  function Refresh(c: Cache, cal: Calibration, cameraChanged: bool, frame: Image, s: Settings): (r: Cache)
    requires CanRefresh(c, cal, cameraChanged, frame)
  {
    var f := ChangeFlags(c, cameraChanged, frame, s);
    var c3 := TablesRefreshed(c, cal, cameraChanged, frame, s);
    if f.cameraParams || f.bufferSize || f.dataType then BufferRebuilt(c3, frame, s) else c3
  }

  /** updateCache as the source writes it; on a 16UC1 frame it agrees with the corrected one. */
  function RefreshAsWritten(c: Cache, cal: Calibration, cameraChanged: bool, frame: Image, s: Settings): (r: Cache)
    requires CanRefresh(c, cal, cameraChanged, frame)
    ensures frame.encoding == Mono16 ==> r == Refresh(c, cal, cameraChanged, frame, s)
  {
    var f := ChangeFlags(c, cameraChanged, frame, s);
    var c3 := TablesRefreshed(c, cal, cameraChanged, frame, s);
    if f.cameraParams || f.bufferSize || f.dataType then BufferRebuiltAsWritten(c3, frame, s) else c3
  }

  /** A frame of an unsupported encoding leaves the (corrected) cache exactly as it was. */
  lemma UnsupportedFrameKeepsCache(c: Cache, cal: Calibration, cameraChanged: bool, frame: Image, s: Settings)
    requires CanRefresh(c, cal, cameraChanged, frame) && frame.encoding.Unsupported?
    ensures Refresh(c, cal, cameraChanged, frame, s) == c
  {
  }

  /**
   * As written, a frame of an unsupported encoding changes one field: when a
   * buffer flag fires, update_buffer records the current scan_height although
   * it resized nothing.
   */
  lemma UnsupportedFrameRecordsScanHeightAsWritten(c: Cache, cal: Calibration, cameraChanged: bool, frame: Image, s: Settings)
    requires CanRefresh(c, cal, cameraChanged, frame) && frame.encoding.Unsupported?
    ensures var f := ChangeFlags(c, cameraChanged, frame, s);
            RefreshAsWritten(c, cal, cameraChanged, frame, s)
            == if f.cameraParams || f.bufferSize || f.dataType then c.(scanHeight := s.scanHeight) else c
  {
  }

  /**
   * After updateCache on a 16UC1 frame every table is sized for the frame
   * and the cache has recorded the current settings. When the calibration
   * changed, or the tables already matched it, they are exactly the tables a
   * build from scratch would give.
   */
  lemma RefreshMakesReady(c: Cache, cal: Calibration, cameraChanged: bool, frame: Image, s: Settings)
    requires CanRefresh(c, cal, cameraChanged, frame) && frame.encoding == Mono16
    requires !cameraChanged ==> Ready(c, frame.width, frame.height)
    ensures var r := Refresh(c, cal, cameraChanged, frame, s);
            && Ready(r, frame.width, frame.height)
            && r.scanHeight == s.scanHeight && r.rangeMin == s.rangeMin
            && r.floorDist == s.floorDist && r.overheadDist == s.overheadDist
    ensures cameraChanged || Consistent(c, cal, frame.width, frame.height) ==>
              Consistent(Refresh(c, cal, cameraChanged, frame, s), cal, frame.width, frame.height)
  {
    var f := ChangeFlags(c, cameraChanged, frame, s);
    var c1 := if f.cameraParams || f.safeLimits || f.dataType then LimitsRebuilt(c, cal, frame, s) else c;
    var c2 := if f.cameraParams then MappingRebuilt(c1, cal, frame) else c1;
    var c3 := TablesRefreshed(c, cal, cameraChanged, frame, s);
    assert c3 == if f.cameraParams || f.rangeMin || f.dataType then MinRangeRebuilt(c2, frame, s) else c2;
    if !cameraChanged {
      assert TablesReady(c, frame.width, frame.height);
      assert !f.dataType;
    }
    assert c1.limits.Some? && c1.limits.value.encoding == Mono16;
    assert c1.limits.value.width == frame.width && c1.limits.value.height == frame.height;
    assert |c1.rowLimits| == frame.height;
    assert |c2.indices| == frame.width && forall u | 0 <= u < frame.width :: c2.indices[u] < frame.width;
    assert |c2.rangeRatios| == frame.width && forall u | 0 <= u < frame.width :: c2.rangeRatios[u] >= 1.0;
    assert c3.rangeRatios == c2.rangeRatios && c3.indices == c2.indices;
  }

  /** updateCache is idempotent: right after it, a second call on the same frame finds nothing stale and changes nothing. */
  lemma RefreshIdempotent(c: Cache, cal: Calibration, cameraChanged: bool, frame: Image, s: Settings)
    requires CanRefresh(c, cal, cameraChanged, frame) && frame.encoding == Mono16
    requires !cameraChanged ==> Ready(c, frame.width, frame.height)
    ensures CanRefresh(Refresh(c, cal, cameraChanged, frame, s), cal, false, frame)
    ensures ChangeFlags(Refresh(c, cal, cameraChanged, frame, s), false, frame, s) == Flags(false, false, false, false, false)
    ensures Refresh(Refresh(c, cal, cameraChanged, frame, s), cal, false, frame, s) == Refresh(c, cal, cameraChanged, frame, s)
  {
    RefreshMakesReady(c, cal, cameraChanged, frame, s);
  }

  /**
   * Without a calibration change, updateCache on a 16UC1 frame rebuilds only
   * what a changed setting invalidates: the mapping is kept, the limits are
   * kept unless the floor or overhead distance changed, the minimum-depth
   * limits unless range_min changed, the buffer unless scan_height changed;
   * and a rebuilt minimum-depth table uses the kept ratios.
   */
  lemma RefreshRebuildsOnlyStale(c: Cache, cal: Calibration, frame: Image, s: Settings)
    requires CanRefresh(c, cal, false, frame) && frame.encoding == Mono16
    ensures var r := Refresh(c, cal, false, frame, s);
            && r.indices == c.indices && r.rangeRatios == c.rangeRatios
            && r.angleMin == c.angleMin && r.angleMax == c.angleMax
            && (s.floorDist == c.floorDist && s.overheadDist == c.overheadDist ==>
                  r.limits == c.limits && r.rowLimits == c.rowLimits)
            && (s.rangeMin == c.rangeMin ==> r.minDepthLimits == c.minDepthLimits)
            && (s.rangeMin != c.rangeMin ==> r.minDepthLimits == MinDepthLimits(c.rangeRatios, frame.width, s.rangeMin))
            && (s.scanHeight == c.scanHeight ==> r.bufferCells == c.bufferCells)
  {
    assert TablesReady(c, frame.width, frame.height);
  }

  /**
   * Each stage of updateCache runs exactly when one of its flags is set: a
   * table whose flags are set is rebuilt from the current settings, one whose
   * flags are clear keeps its value. After a calibration change the minimum
   * depth table is built from the new ratios, because the mapping stage runs
   * before it.
   */
  lemma RefreshFollowsFlags(c: Cache, cal: Calibration, cameraChanged: bool, frame: Image, s: Settings)
    requires CanRefresh(c, cal, cameraChanged, frame) && frame.encoding == Mono16
    ensures var f := ChangeFlags(c, cameraChanged, frame, s);
            var r := Refresh(c, cal, cameraChanged, frame, s);
            && (f.cameraParams || f.safeLimits || f.dataType ==>
                  && r.limits.Some?
                  && r.limits.value.data == LimitPixels(cal, frame.width, frame.height, s.floorDist, s.overheadDist)
                  && r.rowLimits == RowLimitsOf(r.limits.value.data, frame.width, frame.height))
            && (!(f.cameraParams || f.safeLimits || f.dataType) ==> r.limits == c.limits && r.rowLimits == c.rowLimits)
            && (f.cameraParams ==> r.indices == cal.indices && r.rangeRatios == cal.ratios)
            && (!f.cameraParams ==> r.indices == c.indices && r.rangeRatios == c.rangeRatios)
            && (f.cameraParams ==> r.minDepthLimits == MinDepthLimits(cal.ratios, frame.width, s.rangeMin))
            && (!f.cameraParams && (f.rangeMin || f.dataType) ==>
                  r.minDepthLimits == MinDepthLimits(c.rangeRatios, frame.width, s.rangeMin))
            && (!(f.cameraParams || f.rangeMin || f.dataType) ==> r.minDepthLimits == c.minDepthLimits)
            && (f.cameraParams || f.bufferSize || f.dataType ==> r.bufferCells == frame.width * s.scanHeight)
            && (!(f.cameraParams || f.bufferSize || f.dataType) ==> r.bufferCells == c.bufferCells)
  {
    if !cameraChanged {
      assert TablesReady(c, frame.width, frame.height);
    }
  }

  /**
   * The as-written buffer stage loses a scan height change that arrives with
   * a frame of an unsupported encoding: that frame records the new height
   * without resizing the buffer, and the next 16UC1 frame then sees no
   * change at all, so the buffer keeps its old size while convert_new fills
   * width * scan_height cells.
   */
  lemma StaleBufferAfterUnsupportedFrame(c: Cache, cal: Calibration, other: Image, frame: Image, s: Settings)
    requires Ready(c, frame.width, frame.height) && 1 <= frame.width && Fits(cal, frame.width, frame.height)
    requires frame.encoding == Mono16 && other.encoding.Unsupported?
    requires other.width == frame.width && other.height == frame.height
    requires s.floorDist == c.floorDist && s.overheadDist == c.overheadDist && s.rangeMin == c.rangeMin
    requires c.scanHeight < s.scanHeight
    ensures CanRefresh(RefreshAsWritten(c, cal, false, other, s), cal, false, frame)
    ensures var r := RefreshAsWritten(RefreshAsWritten(c, cal, false, other, s), cal, false, frame, s);
            && r.scanHeight == s.scanHeight
            && r.bufferCells == c.bufferCells < frame.width * s.scanHeight
  {
    var c1 := RefreshAsWritten(c, cal, false, other, s);
    assert c1 == c.(scanHeight := s.scanHeight);
    MulMono(c.scanHeight + 1, s.scanHeight, frame.width);
  }

  /** With the corrected buffer stage the same sequence resizes the buffer on the 16UC1 frame. */
  lemma BufferFollowsScanHeight(c: Cache, cal: Calibration, other: Image, frame: Image, s: Settings)
    requires Ready(c, frame.width, frame.height) && 1 <= frame.width && Fits(cal, frame.width, frame.height)
    requires frame.encoding == Mono16 && other.encoding.Unsupported?
    requires other.width == frame.width && other.height == frame.height
    ensures CanRefresh(Refresh(c, cal, false, other, s), cal, false, frame)
    ensures var r := Refresh(Refresh(c, cal, false, other, s), cal, false, frame, s);
            r.scanHeight == s.scanHeight && r.bufferCells == frame.width * s.scanHeight
  {
    UnsupportedFrameKeepsCache(c, cal, false, other, s);
    RefreshMakesReady(c, cal, false, frame, s);
  }

  /**
   * The camera flag is set once, by the frame that brings the new
   * calibration. When that frame has an unsupported encoding every stage is
   * a no-op, and the next 16UC1 frame with the same calibration sets no
   * flag: convert_new then reads the mapping built for the old calibration.
   */
  lemma StaleMappingAfterUnsupportedFrame(c: Cache, cal1: Calibration, cal2: Calibration, other: Image, frame: Image, s: Settings)
    requires Consistent(c, cal1, frame.width, frame.height) && Fits(cal2, frame.width, frame.height)
    requires frame.encoding == Mono16 && other.encoding.Unsupported?
    requires other.width == frame.width && other.height == frame.height
    requires cal2.indices != cal1.indices
    ensures CanRefresh(c, cal2, true, other)
    ensures CanRefresh(RefreshAsWritten(c, cal2, true, other, s), cal2, false, frame)
    ensures var r := RefreshAsWritten(RefreshAsWritten(c, cal2, true, other, s), cal2, false, frame, s);
            && TablesReady(r, frame.width, frame.height)
            && r.indices == cal1.indices
            && !Consistent(r, cal2, frame.width, frame.height)
  {
    var c1 := RefreshAsWritten(c, cal2, true, other, s);
    assert c1.(scanHeight := c.scanHeight) == c;
    assert TablesReady(c1, frame.width, frame.height);
    RefreshRebuildsOnlyStale(c1, cal2, frame, s);
  }

  /**
   * The same loss on a fresh cache: when the first frame with a calibration
   * has an unsupported encoding nothing is built, and the next 16UC1 frame
   * sets neither the camera flag nor the data type flag, so the mapping
   * stage never runs and the bins and ratios convert_new reads stay empty.
   * The limits and minimum-range stages still run when a distance or
   * range_min differs from the zero the fresh cache holds.
   */
  lemma UnbuiltMappingAfterUnsupportedFrame(cal: Calibration, other: Image, frame: Image, s: Settings)
    requires 1 <= other.width && Fits(cal, other.width, other.height)
    requires frame.encoding == Mono16 && other.encoding.Unsupported?
    requires other.width == frame.width && other.height == frame.height
    ensures CanRefresh(EmptyCache(), cal, true, other)
    ensures var c1 := RefreshAsWritten(EmptyCache(), cal, true, other, s);
            var f := ChangeFlags(c1, false, frame, s);
            && c1.limits.None? && c1.indices == [] && c1.rangeRatios == []
            && !f.cameraParams && !f.dataType
            && (f.safeLimits <==> s.floorDist != 0.0 || s.overheadDist != 0.0)
            && (f.rangeMin <==> s.rangeMin != 0.0)
            && !TablesReady(c1, frame.width, frame.height)
  {
  }

  /**
   * The camera flag corrected: a change that arrives with a frame of an
   * unsupported encoding stays pending, so the next 16UC1 frame runs every
   * stage with the new calibration, whatever the cache held before, and
   * leaves tables consistent with it.
   */
  lemma PendingCameraChangeRebuildsTables(c: Cache, cal: Calibration, other: Image, frame: Image, s: Settings)
    requires 1 <= frame.width && Fits(cal, frame.width, frame.height)
    requires frame.encoding == Mono16 && other.encoding.Unsupported?
    requires other.width == frame.width && other.height == frame.height
    ensures CanRefresh(c, cal, true, other)
    ensures Refresh(c, cal, true, other, s) == c
    ensures CanRefresh(Refresh(c, cal, true, other, s), cal, true, frame)
    ensures var r := Refresh(Refresh(c, cal, true, other, s), cal, true, frame, s);
            Consistent(r, cal, frame.width, frame.height) && r.indices == cal.indices
  {
    UnsupportedFrameKeepsCache(c, cal, true, other, s);
    RefreshMakesReady(c, cal, true, frame, s);
  }
}

=== FILE: converter.dfy ===
/**
 * DepthImageToLaserScan: the converter object. It holds the parameters the
 * setters store, the camera model (as the calibration it was last given),
 * the conversion cache and the reduction buffer, and turns a depth frame
 * into a laser scan with convert_msg.
 */
module DepthImageToLaserScan {
  import opened Wrappers
  import opened RowMajor
  import DepthTraits
  import opened ConversionCache
  import FrameReducer
  import opened ScanSpec

  /**
   * The loops of update_limits: the safety limit of every pixel, row by
   * row, into a new limits image, and each row's last one into row_limits.
   */
  method ComputeLimits(cal: Calibration, w: nat, h: nat, floorDist: real, overheadDist: real)
    returns (sendData: array<int>, rowLimits: array<int>)
    requires 1 <= w && Fits(cal, w, h)
    ensures fresh(sendData) && fresh(rowLimits)
    ensures sendData[..] == LimitPixels(cal, w, h, floorDist, overheadDist)
    ensures rowLimits[..] == RowLimitsOf(sendData[..], w, h)
  {
    ghost var pixels := LimitPixels(cal, w, h, floorDist, overheadDist);
    ghost var rows := RowLimitsOf(pixels, w, h);
    sendData := new int[w * h];
    rowLimits := new int[h];
    var v, i := 0, 0;
    while v < h
      modifies sendData, rowLimits
      invariant 0 <= v <= h && i == v * w && i <= w * h
      invariant forall j | 0 <= j < i :: sendData[j] == pixels[j]
      invariant forall k | 0 <= k < v :: rowLimits[k] == rows[k]
    {
      CellBound(v, h, w, w - 1);
      var u := 0;
      while u < w
        modifies sendData
        invariant 0 <= u <= w && i == v * w + u
        invariant forall j | 0 <= j < i :: sendData[j] == pixels[j]
      {
        sendData[i] := PixelLimit(cal.rayY[i], cal.rayZ[i], floorDist, overheadDist);
        u, i := u + 1, i + 1;
      }
      assert i - 1 == v * w + (w - 1);
      rowLimits[v] := sendData[i - 1];
      v := v + 1;
    }
    assert sendData[..] == pixels;
    assert rowLimits[..] == rows;
  }

  // ---------------------------------------------------------------------------
  // The converter object
  // ---------------------------------------------------------------------------

  /**
   * One converter instance serves one camera, so every frame and
   * calibration it sees has the same width x height geometry.
   */
  class Converter {
    ghost const width: nat
    ghost const height: nat

    var scanTime: real
    var rangeMin: real
    var rangeMax: real
    var scanHeight: nat
    var floorDist: real
    var overheadDist: real
    var outputFrameId: string
    var camModel: Option<Calibration>
    /** A calibration change that no stage has built tables for yet (the corrected camera flag). */
    var cameraPending: bool
    var cache: Cache
    var minDepthsBuffer: array<int>

    /**
     * The buffer matches the cache, the camera model the geometry, a limits
     * image means every table is ready, and unless a calibration change is
     * pending every table is the one the held calibration gives.
     */
    ghost predicate Valid()
      reads this
    {
      && 2 <= width
      && minDepthsBuffer.Length == cache.bufferCells
      && (camModel.Some? ==> Fits(camModel.value, width, height))
      && (cache.limits.Some? ==> camModel.Some? && Ready(cache, width, height))
      && (camModel.Some? && !cameraPending ==> Consistent(cache, camModel.value, width, height))
    }

    /** The parameters the setters store, as updateCache compares them. */
    function CurrentSettings(): Settings
      reads this
    {
      Settings(rangeMin, rangeMax, scanHeight, floorDist, overheadDist)
    }

    /** A converter with no camera model and an empty cache; the source leaves the parameters unset, here they start at zero. */
    constructor(w: nat, h: nat)
      requires 2 <= w
      ensures Valid() && width == w && height == h
      ensures camModel.None? && !cameraPending && cache == EmptyCache()
      ensures CurrentSettings() == Settings(0.0, 0.0, 0, 0.0, 0.0) && scanTime == 0.0 && outputFrameId == ""
    {
      width, height := w, h;
      scanTime, rangeMin, rangeMax, scanHeight, floorDist, overheadDist := 0.0, 0.0, 0.0, 0, 0.0, 0.0;
      outputFrameId := "";
      camModel := None;
      cameraPending := false;
      cache := EmptyCache();
      minDepthsBuffer := new int[0];
    }

    /** set_scan_time. */
    method SetScanTime(t: real)
      requires Valid()
      modifies this
      ensures Valid() && scanTime == t
      ensures CurrentSettings() == old(CurrentSettings()) && outputFrameId == old(outputFrameId)
      ensures camModel == old(camModel) && cameraPending == old(cameraPending)
      ensures cache == old(cache) && minDepthsBuffer == old(minDepthsBuffer)
    {
      scanTime := t;
    }

    /** set_range_limits. */
    method SetRangeLimits(newMin: real, newMax: real)
      requires Valid()
      modifies this
      ensures Valid() && CurrentSettings() == old(CurrentSettings()).(rangeMin := newMin, rangeMax := newMax)
      ensures scanTime == old(scanTime) && outputFrameId == old(outputFrameId)
      ensures camModel == old(camModel) && cameraPending == old(cameraPending)
      ensures cache == old(cache) && minDepthsBuffer == old(minDepthsBuffer)
    {
      rangeMin, rangeMax := newMin, newMax;
    }

    /** set_scan_height; the source takes an int, a negative height is not modelled. */
    method SetScanHeight(newHeight: int)
      requires Valid() && 0 <= newHeight
      modifies this
      ensures Valid() && CurrentSettings() == old(CurrentSettings()).(scanHeight := newHeight)
      ensures scanTime == old(scanTime) && outputFrameId == old(outputFrameId)
      ensures camModel == old(camModel) && cameraPending == old(cameraPending)
      ensures cache == old(cache) && minDepthsBuffer == old(minDepthsBuffer)
    {
      scanHeight := newHeight;
    }

    /** set_output_frame. */
    method SetOutputFrame(frameId: string)
      requires Valid()
      modifies this
      ensures Valid() && outputFrameId == frameId
      ensures CurrentSettings() == old(CurrentSettings()) && scanTime == old(scanTime)
      ensures camModel == old(camModel) && cameraPending == old(cameraPending)
      ensures cache == old(cache) && minDepthsBuffer == old(minDepthsBuffer)
    {
      outputFrameId := frameId;
    }

    /** set_filtering_limits. */
    method SetFilteringLimits(newFloor: real, newOverhead: real)
      requires Valid()
      modifies this
      ensures Valid() && CurrentSettings() == old(CurrentSettings()).(floorDist := newFloor, overheadDist := newOverhead)
      ensures scanTime == old(scanTime) && outputFrameId == old(outputFrameId)
      ensures camModel == old(camModel) && cameraPending == old(cameraPending)
      ensures cache == old(cache) && minDepthsBuffer == old(minDepthsBuffer)
    {
      floorDist, overheadDist := newFloor, newOverhead;
    }

    /** fromCameraInfo of the camera model: store the calibration, report whether it differs from the one held. */
    method FromCameraInfo(info: Calibration) returns (changed: bool)
      modifies this
      ensures changed <==> old(camModel) != Some(info)
      ensures camModel == Some(info)
      ensures CurrentSettings() == old(CurrentSettings()) && scanTime == old(scanTime) && outputFrameId == old(outputFrameId)
      ensures cache == old(cache) && cameraPending == old(cameraPending) && minDepthsBuffer == old(minDepthsBuffer)
    {
      changed := camModel != Some(info);
      camModel := Some(info);
    }

    /** update_limits: one safety limit per pixel, row by row, and each row's last one as its row limit. */
    method UpdateLimits(frame: Image)
      requires camModel.Some? && 1 <= frame.width && Fits(camModel.value, frame.width, frame.height)
      requires frame.encoding != Float32
      modifies this
      ensures camModel == old(camModel) && cameraPending == old(cameraPending) && minDepthsBuffer == old(minDepthsBuffer)
      ensures CurrentSettings() == old(CurrentSettings()) && scanTime == old(scanTime) && outputFrameId == old(outputFrameId)
      ensures cache == LimitsRebuilt(old(cache), camModel.value, frame, CurrentSettings())
    {
      if frame.encoding != Mono16 {
        return;
      }
      var w, h := frame.width, frame.height;
      var sendData, rowLimits := ComputeLimits(camModel.value, w, h, floorDist, overheadDist);
      cache := cache.(limits := Some(Image(frame.frameId, w, h, Mono16, sendData[..])),
                      rowLimits := rowLimits[..], floorDist := floorDist, overheadDist := overheadDist);
    }

    /** update_mapping: the scan extent, the column-to-bin indices and the range ratios from the camera model. */
    method UpdateMapping(frame: Image)
      requires camModel.Some? && frame.encoding != Float32
      modifies this
      ensures camModel == old(camModel) && cameraPending == old(cameraPending) && minDepthsBuffer == old(minDepthsBuffer)
      ensures CurrentSettings() == old(CurrentSettings()) && scanTime == old(scanTime) && outputFrameId == old(outputFrameId)
      ensures cache == MappingRebuilt(old(cache), camModel.value, frame)
    {
      if frame.encoding == Mono16 {
        var cal := camModel.value;
        cache := cache.(angleMin := cal.angleMin, angleMax := cal.angleMax, indices := cal.indices, rangeRatios := cal.ratios);
      }
    }

    /** update_min_range: per column, fromMeters(range_min) over the column's ratio. */
    method UpdateMinRange(frame: Image)
      requires frame.encoding != Float32
      requires frame.encoding == Mono16 ==>
                 frame.width <= |cache.rangeRatios| && forall u | 0 <= u < frame.width :: cache.rangeRatios[u] >= 1.0
      modifies this
      ensures cache == MinRangeRebuilt(old(cache), frame, CurrentSettings())
      ensures CurrentSettings() == old(CurrentSettings()) && scanTime == old(scanTime) && outputFrameId == old(outputFrameId)
      ensures camModel == old(camModel) && cameraPending == old(cameraPending) && minDepthsBuffer == old(minDepthsBuffer)
    {
      if frame.encoding != Mono16 {
        return;
      }
      var minRange := DepthTraits.FromMeters(rangeMin) as real;
      var limits := new int[frame.width];
      var u := 0;
      while u < frame.width
        modifies limits
        invariant 0 <= u <= frame.width
        invariant forall j | 0 <= j < u :: limits[j] == MinDepthLimits(cache.rangeRatios, frame.width, rangeMin)[j]
      {
        var ratio := cache.rangeRatios[u];
        limits[u] := DepthTraits.Trunc(minRange / ratio);
        u := u + 1;
      }
      cache := cache.(minDepthLimits := limits[..], rangeMin := rangeMin);
    }

    /** update_buffer (corrected): a buffer of width * scan_height cells, and the height it was sized for. */
    method UpdateBuffer(frame: Image)
      requires frame.encoding != Float32
      modifies this
      ensures cache == BufferRebuilt(old(cache), frame, CurrentSettings())
      ensures frame.encoding == Mono16 ==> fresh(minDepthsBuffer) && minDepthsBuffer.Length == cache.bufferCells
      ensures frame.encoding.Unsupported? ==> minDepthsBuffer == old(minDepthsBuffer)
      ensures CurrentSettings() == old(CurrentSettings()) && scanTime == old(scanTime) && outputFrameId == old(outputFrameId)
      ensures camModel == old(camModel) && cameraPending == old(cameraPending)
    {
      if frame.encoding == Mono16 {
        minDepthsBuffer := new int[frame.width * scanHeight];
        cache := cache.(bufferCells := frame.width * scanHeight, scanHeight := scanHeight);
      }
    }

    /** The four stages of updateCache, each run when one of its flags is set, in the source's order. */
    method RebuildStale(frame: Image, cameraParamsChanged: bool)
      requires camModel.Some? && CanRefresh(cache, camModel.value, cameraParamsChanged, frame)
      requires minDepthsBuffer.Length == cache.bufferCells
      modifies this
      ensures camModel == old(camModel) && cameraPending == old(cameraPending)
      ensures CurrentSettings() == old(CurrentSettings()) && scanTime == old(scanTime) && outputFrameId == old(outputFrameId)
      ensures cache == Refresh(old(cache), camModel.value, cameraParamsChanged, frame, CurrentSettings())
      ensures minDepthsBuffer.Length == cache.bufferCells
      ensures frame.encoding.Unsupported? ==> minDepthsBuffer == old(minDepthsBuffer)
      ensures minDepthsBuffer == old(minDepthsBuffer) || fresh(minDepthsBuffer)
    {
      ghost var c0 := cache;
      var dataTypeChanged := cache.limits.Some? && frame.encoding != cache.limits.value.encoding;
      var bufferSizeChanged := scanHeight != cache.scanHeight;
      var safeLimitsChanged := floorDist != cache.floorDist || overheadDist != cache.overheadDist;
      var rangeMinChanged := rangeMin != cache.rangeMin;
      ghost var cal := camModel.value;
      ghost var s := CurrentSettings();
      assert ChangeFlags(c0, cameraParamsChanged, frame, s)
          == Flags(cameraParamsChanged, dataTypeChanged, bufferSizeChanged, safeLimitsChanged, rangeMinChanged);

      if cameraParamsChanged || safeLimitsChanged || dataTypeChanged {
        UpdateLimits(frame);
      }
      if cameraParamsChanged {
        UpdateMapping(frame);
      }
      ghost var c2 := cache;
      assert frame.encoding == Mono16 ==> c2.rangeRatios == (if cameraParamsChanged then cal.ratios else c0.rangeRatios);
      if cameraParamsChanged || rangeMinChanged || dataTypeChanged {
        UpdateMinRange(frame);
      }
      assert cache == TablesRefreshed(c0, cal, cameraParamsChanged, frame, s);
      if cameraParamsChanged || bufferSizeChanged || dataTypeChanged {
        UpdateBuffer(frame);
      }
    }

    /**
     * updateCache(depth_msg, info_msg): take the calibration if one is given,
     * then rebuild what the flags mark stale. The camera flag is corrected: a
     * change seen with a frame of an unsupported encoding, which builds
     * nothing, stays pending until a 16UC1 frame builds the tables for it.
     */
    method UpdateCache(frame: Image, info: Option<Calibration>)
      requires Valid() && frame.width == width && frame.height == height && frame.encoding != Float32
      requires info.Some? ==> Fits(info.value, width, height)
      requires info.Some? || camModel.Some?
      modifies this
      ensures Valid()
      ensures camModel == (if info.Some? then info else old(camModel))
      ensures CanRefresh(old(cache), camModel.value, (info.Some? && old(camModel) != info) || old(cameraPending), frame)
      ensures cache == Refresh(old(cache), camModel.value, (info.Some? && old(camModel) != info) || old(cameraPending),
                               frame, CurrentSettings())
      ensures cameraPending == (((info.Some? && old(camModel) != info) || old(cameraPending)) && frame.encoding.Unsupported?)
      ensures frame.encoding == Mono16 ==> Consistent(cache, camModel.value, width, height)
      ensures frame.encoding.Unsupported? ==> minDepthsBuffer == old(minDepthsBuffer)
      ensures minDepthsBuffer == old(minDepthsBuffer) || fresh(minDepthsBuffer)
      ensures CurrentSettings() == old(CurrentSettings()) && scanTime == old(scanTime) && outputFrameId == old(outputFrameId)
    {
      ghost var c0 := cache;
      var cameraParamsChanged := cameraPending;
      if info.Some? {
        var changed := FromCameraInfo(info.value);
        cameraParamsChanged := changed || cameraPending;
      }
      ghost var cal := camModel.value;
      ghost var s := CurrentSettings();
      assert !cameraParamsChanged ==> Consistent(c0, cal, width, height);
      RebuildStale(frame, cameraParamsChanged);
      cameraPending := cameraParamsChanged && frame.encoding.Unsupported?;
      if frame.encoding == Mono16 {
        RefreshMakesReady(c0, cal, cameraParamsChanged, frame, s);
      } else {
        UnsupportedFrameKeepsCache(c0, cal, cameraParamsChanged, frame, s);
      }
    }

    /** updateCache(): with no new calibration, refresh against the cached limits image, if there is one. */
    method UpdateCacheFromLimits()
      requires Valid()
      modifies this
      ensures Valid() && camModel == old(camModel)
      ensures old(cache.limits).None? ==> cache == old(cache) && minDepthsBuffer == old(minDepthsBuffer)
      ensures old(cache.limits).None? ==> cameraPending == old(cameraPending)
      ensures old(cache.limits).Some? ==>
                && CanRefresh(old(cache), camModel.value, old(cameraPending), old(cache.limits.value))
                && cache == Refresh(old(cache), camModel.value, old(cameraPending), old(cache.limits.value), CurrentSettings())
                && !cameraPending && Consistent(cache, camModel.value, width, height)
      ensures CurrentSettings() == old(CurrentSettings()) && scanTime == old(scanTime) && outputFrameId == old(outputFrameId)
    {
      if cache.limits.Some? {
        UpdateCache(cache.limits.value, None);
      }
    }

    /**
     * convert_msg: refresh the cache with the frame and its calibration, hand
     * out the limits image, then fail on a band that does not fit or an
     * unsupported encoding, or fill a NaN scan with convert_new.
     */
    method ConvertMsg(frame: Image, info: Calibration) returns (result: Result<LaserScan, ConvError>, image: Option<Image>)
      requires Valid() && frame.width == width && frame.height == height && |frame.data| == width * height
      requires Fits(info, width, height) && frame.encoding != Float32
      modifies this, minDepthsBuffer
      ensures Valid() && camModel == Some(info)
      ensures CanRefresh(old(cache), info, old(camModel) != Some(info) || old(cameraPending), frame)
      ensures cache == Refresh(old(cache), info, old(camModel) != Some(info) || old(cameraPending), frame, CurrentSettings())
      ensures cameraPending == ((old(camModel) != Some(info) || old(cameraPending)) && frame.encoding.Unsupported?)
      ensures frame.encoding == Mono16 ==> Consistent(cache, info, width, height)
      ensures image == cache.limits
      ensures result == ScanOf(frame, info.cy, cache, CurrentSettings(), scanTime, outputFrameId)
      ensures CurrentSettings() == old(CurrentSettings()) && scanTime == old(scanTime) && outputFrameId == old(outputFrameId)
    {
      ghost var c0, cam0, p0 := cache, camModel, cameraPending;
      UpdateCache(frame, Some(info));
      ghost var s := CurrentSettings();
      if frame.encoding == Mono16 {
        RefreshMakesReady(c0, info, cam0 != Some(info) || p0, frame, s);
      }
      image := cache.limits;
      var scan := LaserScan(if |outputFrameId| > 0 then outputFrameId else frame.frameId,
                            cache.angleMin, cache.angleMax, (cache.angleMax - cache.angleMin) / (frame.width - 1) as real,
                            0.0, scanTime, rangeMin, rangeMax, []);
      assert scan == ScanHeader(frame, cache, s, scanTime, outputFrameId);
      var cy := camModel.value.cy;
      if !BandFits(scanHeight, cy, frame.height) {
        result := Failure(ScanHeightTooLarge(scanHeight));
        return;
      }
      var ranges := new Option<real>[frame.width](_ => None);
      match frame.encoding {
        case Mono16 =>
          assert ranges[..] == NaNs(frame.width);
          assert minDepthsBuffer.Length == scanHeight * frame.width;
          FrameReducer.ConvertNew(frame.data, frame.width, frame.height, cy, scanHeight,
                                  cache.rowLimits, cache.minDepthLimits, cache.rangeRatios, cache.indices,
                                  rangeMax, minDepthsBuffer, ranges);
          assert ranges[..] == FrameRanges(frame, cy, cache, s);
          result := Success(scan.(ranges := ranges[..]));
        case Unsupported(name) =>
          result := Failure(UnsupportedEncoding(name));
      }
    }
  }
}

=== FILE: depth_traits.dfy ===
/**
 * Depth numeric traits of the 16UC1 encoding: samples are unsigned 16-bit
 * millimetres. Floating-point values are modelled as reals; a C++ conversion
 * from floating point to an integer type truncates toward zero.
 */
module DepthTraits {

  const MaxU16: int := 65535

  predicate IsU16(x: int) {
    0 <= x <= MaxU16
  }

  /** The C++ float-to-integer conversion: rounds toward zero. */
  function Trunc(x: real): (r: int)
    ensures x >= 0.0 ==> 0 <= r && r as real <= x < r as real + 1.0
    ensures x < 0.0 ==> r <= 0 && x <= r as real && r as real - 1.0 < x
  {
    if x >= 0.0 then x.Floor else -((-x).Floor)
  }

  /** fromMeters for 16UC1: metres to millimetres, rounded half up. */
  function FromMeters(m: real): int {
    Trunc(m * 1000.0 + 0.5)
  }

  /** toMeters for 16UC1: millimetres to metres. */
  function ToMeters(d: int): real {
    d as real * 0.001
  }

  /** One more metre is exactly 1000 more native units. */
  lemma FromMetersPlusOneMetre(m: real)
    requires m * 1000.0 + 0.5 >= 0.0
    ensures FromMeters(m + 1.0) == FromMeters(m) + 1000
  {
    var x := m * 1000.0 + 0.5;
    assert (m + 1.0) * 1000.0 + 0.5 == x + 1000.0;
    assert (x + 1000.0).Floor == x.Floor + 1000;
  }

  /** Truncation toward zero never reverses an order. */
  lemma TruncMonotone(x: real, y: real)
    requires x <= y
    ensures Trunc(x) <= Trunc(y)
  {
    if x < 0.0 && 0.0 <= y {
    } else if 0.0 <= x {
      assert x.Floor <= y.Floor;
    } else {
      assert (-y).Floor <= (-x).Floor;
    }
  }
}

=== FILE: frame_reducer.dfy ===
/**
 * The frame reducer of convert_new (16UC1 path): the band filter, the
 * in-place halving min-reduction of the scratch buffer, and the scatter of
 * the reduced columns into scan bins. A bin that no column writes stays
 * None, which stands for the source's NaN ("no return").
 */
module FrameReducer {
  import opened Wrappers
  import opened RowMajor
  import DepthTraits

  /** mymin, i.e. std::min. */
  function Min(a: int, b: int): (r: int)
    ensures r <= a && r <= b && (r == a || r == b)
  {
    if b < a then b else a
  }

  // ---------------------------------------------------------------------------
  // Band filter
  // ---------------------------------------------------------------------------

  /** A sample survives only strictly inside (column min-depth limit, row safety limit). */
  function Filtered(depth: int, safeMin: int, minLim: int, bigVal: int): (r: int)
    ensures r == depth || r == bigVal
    ensures r != bigVal ==> minLim < r < safeMin
  {
    if depth < safeMin && minLim < depth then depth else bigVal
  }

  /** Filtered values of image row `row`, with that row's safety limit. */
  function FilteredRow(data: seq<int>, w: nat, row: nat, safeMin: int, minLims: seq<int>, bigVal: int): (r: seq<int>)
    requires (row + 1) * w <= |data| && w <= |minLims|
    ensures |r| == w
  {
    seq(w, u requires 0 <= u < w =>
      assert row * w + u < |data| by { CellBound(row, row + 1, w, u); }
      Filtered(data[row * w + u], safeMin, minLims[u], bigVal))
  }

  /** The n x w filtered buffer for the band of image rows offset .. offset + n - 1. */
  function FilteredBand(data: seq<int>, w: nat, offset: nat, n: nat, rowLimits: seq<int>, minLims: seq<int>, bigVal: int): (r: seq<int>)
    requires (offset + n) * w <= |data| && offset + n <= |rowLimits| && w <= |minLims|
    ensures |r| == n * w
    decreases n
  {
    if n == 0 then []
    else
      assert (offset + n - 1) * w <= |data| by { MulMono(offset + n - 1, offset + n, w); }
      assert n * w == (n - 1) * w + w by { MulAddDistrib(n - 1, 1, w); }
      FilteredBand(data, w, offset, n - 1, rowLimits, minLims, bigVal)
         + FilteredRow(data, w, offset + n - 1, rowLimits[offset + n - 1], minLims, bigVal)
  }

  /**
   * Filter law: cell (v, u) of the band holds the raw sample exactly when the
   * sample is below the row's safety limit and above the column's min-depth
   * limit, and the sentinel otherwise.
   */
  lemma {:induction false} FilteredBandAt(data: seq<int>, w: nat, offset: nat, n: nat, rowLimits: seq<int>, minLims: seq<int>, bigVal: int, v: nat, u: nat)
    requires (offset + n) * w <= |data| && offset + n <= |rowLimits| && w <= |minLims|
    requires v < n && u < w
    ensures v * w + u < n * w && (offset + v) * w + u < |data|
    ensures var depth := data[(offset + v) * w + u];
            var cell := FilteredBand(data, w, offset, n, rowLimits, minLims, bigVal)[v * w + u];
            (depth < rowLimits[offset + v] && minLims[u] < depth ==> cell == depth) &&
            (!(depth < rowLimits[offset + v] && minLims[u] < depth) ==> cell == bigVal)
    decreases n
  {
    CellBound(v, n, w, u);
    CellBound(offset + v, offset + n, w, u);
    MulMono(offset + n - 1, offset + n, w);
    var prefix := FilteredBand(data, w, offset, n - 1, rowLimits, minLims, bigVal);
    var row := FilteredRow(data, w, offset + n - 1, rowLimits[offset + n - 1], minLims, bigVal);
    assert FilteredBand(data, w, offset, n, rowLimits, minLims, bigVal) == prefix + row;
    assert |prefix| == (n - 1) * w;
    if v < n - 1 {
      FilteredBandAt(data, w, offset, n - 1, rowLimits, minLims, bigVal, v, u);
      CellBound(v, n - 1, w, u);
    } else {
      assert v * w + u == |prefix| + u;
      assert (prefix + row)[v * w + u] == row[u];
    }
  }

  /** One pass of the inner loop of the filter: row `row` of the image, filtered, into buf[start..start + w]. */
  method FilterRow(data: seq<int>, w: nat, row: nat, safeMin: int, minLims: seq<int>, bigVal: int, buf: array<int>, start: nat)
    requires (row + 1) * w <= |data| && w <= |minLims| && start + w <= buf.Length
    modifies buf
    ensures buf[..start] == old(buf[..start])
    ensures buf[start..start + w] == FilteredRow(data, w, row, safeMin, minLims, bigVal)
  {
    ghost var filtered := FilteredRow(data, w, row, safeMin, minLims, bigVal);
    var source := row * w;
    assert source + w <= |data| by { MulAddDistrib(row, 1, w); }
    var u := 0;
    while u < w
      invariant 0 <= u <= w
      invariant buf[..start] == old(buf[..start])
      invariant forall k | 0 <= k < u :: buf[start + k] == filtered[k]
    {
      var depth := data[source + u];
      var minLim := minLims[u];
      buf[start + u] := if depth < safeMin && minLim < depth then depth else bigVal;
      u := u + 1;
    }
    assert buf[start..start + w] == filtered by {
      forall k | 0 <= k < w
        ensures buf[start..start + w][k] == filtered[k]
      {
        assert buf[start..start + w][k] == buf[start + k];
      }
    }
  }

  /** The first loop of convert_new: copy the band into the scratch buffer, filtered, row by row. */
  method FilterBand(data: seq<int>, w: nat, offset: nat, n: nat, rowLimits: seq<int>, minLims: seq<int>, bigVal: int, buf: array<int>)
    requires (offset + n) * w <= |data| && offset + n <= |rowLimits| && w <= |minLims|
    requires n * w <= buf.Length
    modifies buf
    ensures buf[..n * w] == FilteredBand(data, w, offset, n, rowLimits, minLims, bigVal)
  {
    var v, i := 0, 0;
    while v < n
      invariant 0 <= v <= n && i == v * w
      invariant buf[..i] == FilteredBand(data, w, offset, v, rowLimits, minLims, bigVal)
    {
      MulMono(v + 1, n, w);
      MulMono(offset + v + 1, offset + n, w);
      assert (v + 1) * w == i + w by { MulAddDistrib(v, 1, w); }
      ghost var prefix := buf[..i];
      FilterRow(data, w, offset + v, rowLimits[offset + v], minLims, bigVal, buf, i);
      assert buf[..i + w] == buf[..i] + buf[i..i + w];
      assert buf[..i] == prefix;
      v, i := v + 1, i + w;
    }
  }

  // ---------------------------------------------------------------------------
  // Halving min-reduction
  // ---------------------------------------------------------------------------

  /** Minimum of column u over rows lo .. hi - 1 of a buffer with w columns. */
  function RowsMin(s: seq<int>, w: nat, u: nat, lo: nat, hi: nat): int
    requires lo < hi && u < w && hi * w <= |s|
    decreases hi - lo
  {
    assert (hi - 1) * w + u < |s| by { CellBound(hi - 1, hi, w, u); }
    if hi == lo + 1 then Cell(s, w, lo, u)
    else
      assert (hi - 1) * w <= |s| by { MulMono(hi - 1, hi, w); }
      Min(RowsMin(s, w, u, lo, hi - 1), Cell(s, w, hi - 1, u))
  }

  /** No cell of column u in rows lo .. hi - 1 is below RowsMin. */
  lemma {:induction false} RowsMinIsLowerBound(s: seq<int>, w: nat, u: nat, lo: nat, hi: nat, v: nat)
    requires lo < hi && u < w && hi * w <= |s|
    requires lo <= v < hi
    ensures v * w + u < |s|
    ensures RowsMin(s, w, u, lo, hi) <= s[v * w + u]
    decreases hi - lo
  {
    CellBound(v, hi, w, u);
    if v < hi - 1 {
      MulMono(hi - 1, hi, w);
      RowsMinIsLowerBound(s, w, u, lo, hi - 1, v);
    }
  }

  /** Some cell of column u in rows lo .. hi - 1 attains RowsMin. */
  lemma {:induction false} RowsMinIsAttained(s: seq<int>, w: nat, u: nat, lo: nat, hi: nat) returns (v: nat)
    requires lo < hi && u < w && hi * w <= |s|
    ensures lo <= v < hi && v * w + u < |s|
    ensures RowsMin(s, w, u, lo, hi) == s[v * w + u]
    decreases hi - lo
  {
    CellBound(hi - 1, hi, w, u);
    if hi == lo + 1 {
      v := lo;
    } else {
      MulMono(hi - 1, hi, w);
      var v' := RowsMinIsAttained(s, w, u, lo, hi - 1);
      v := if s[(hi - 1) * w + u] < RowsMin(s, w, u, lo, hi - 1) then hi - 1 else v';
    }
  }

  /** Rows can be split anywhere: the minimum over lo..hi is the min of the two parts. */
  lemma {:induction false} RowsMinSplit(s: seq<int>, w: nat, u: nat, lo: nat, m: nat, hi: nat)
    requires lo < m < hi && u < w && hi * w <= |s|
    ensures m * w <= |s|
    ensures RowsMin(s, w, u, lo, hi) == Min(RowsMin(s, w, u, lo, m), RowsMin(s, w, u, m, hi))
    decreases hi
  {
    MulMono(m, hi, w);
    if hi > m + 1 {
      MulMono(hi - 1, hi, w);
      RowsMinSplit(s, w, u, lo, m, hi - 1);
    }
  }

  /** The column-wise minimum over the first n rows, one value per column. */
  function ColumnMins(s: seq<int>, w: nat, n: nat): (r: seq<int>)
    requires 1 <= n && n * w <= |s|
    ensures |r| == w
  {
    seq(w, u requires 0 <= u < w => RowsMin(s, w, u, 0, n))
  }

  /** Out-of-place meaning of the first loop of a halving round: cell j < half becomes min(s[j], s[j + half]). */
  function FirstPass(s: seq<int>, half: nat): (t: seq<int>)
    requires 2 * half <= |s|
    ensures |t| == |s|
  {
    seq(|s|, j requires 0 <= j < |s| => if j < half then Min(s[j], s[j + half]) else s[j])
  }

  /** Out-of-place meaning of the remainder loop: cell j < rem folds in the leftover row cell 2 * half + j. */
  function RemainderPass(t: seq<int>, half: nat, rem: nat): (r: seq<int>)
    requires 2 * half + rem <= |t|
    ensures |r| == |t|
  {
    seq(|t|, j requires 0 <= j < |t| => if j < rem then Min(t[j], t[2 * half + j]) else t[j])
  }

  /** The cells of the first n / 2 rows: twice that, plus one row when n is odd, is the whole region. */
  function HalfSize(n: nat, w: nat): (r: nat)
    ensures 2 * r + (n % 2) * w == n * w
  {
    var h := n / 2;
    assert 2 * (h * w) + (n % 2) * w == n * w by {
      assert n == 2 * h + n % 2;
      MulAddDistrib(2 * h, n % 2, w);
      MulAssoc2(h, w);
    }
    h * w
  }

  /** One halving round on n >= 2 live rows, as if each loop read an untouched copy. */
  function Halved(s: seq<int>, n: nat, w: nat): (r: seq<int>)
    requires 2 <= n && n * w <= |s|
    ensures |r| == |s|
  {
    var half := HalfSize(n, w);
    RemainderPass(FirstPass(s, half), half, n * w - 2 * half)
  }

  /** Folding the second half of 2h rows onto the first pairs row v with row v + h. */
  lemma {:induction false} FirstPassRowsMin(s: seq<int>, w: nat, u: nat, h: nat, k: nat)
    requires 1 <= k <= h && u < w && 2 * (h * w) <= |s|
    ensures (h + k) * w <= |s| && k * w <= |s|
    ensures RowsMin(FirstPass(s, h * w), w, u, 0, k) == Min(RowsMin(s, w, u, 0, k), RowsMin(s, w, u, h, h + k))
    decreases k
  {
    MulMono(h + k, 2 * h, w);
    MulMono(k, h, w);
    assert 2 * (h * w) == (2 * h) * w;
    var t := FirstPass(s, h * w);
    CellBound(k - 1, h, w, u);
    assert (k - 1) * w + u + h * w == (h + k - 1) * w + u;
    assert Cell(t, w, k - 1, u) == Min(Cell(s, w, k - 1, u), Cell(s, w, h + k - 1, u));
    if k > 1 {
      MulMono(k - 1, k, w);
      FirstPassRowsMin(s, w, u, h, k - 1);
    }
  }

  /** The remainder loop folds the leftover row into row 0 only. */
  lemma {:induction false} RemainderPassRowsMin(t: seq<int>, w: nat, u: nat, h: nat, k: nat)
    requires 1 <= k <= h && u < w && 2 * (h * w) + w <= |t|
    ensures k * w <= |t|
    ensures RowsMin(RemainderPass(t, h * w, w), w, u, 0, k) == Min(RowsMin(t, w, u, 0, k), t[2 * (h * w) + u])
    decreases k
  {
    MulMono(k, h, w);
    MulMono(h, 2 * h, w);
    assert 2 * (h * w) == (2 * h) * w;
    var r := RemainderPass(t, h * w, w);
    if k > 1 {
      MulMono(k - 1, k, w);
      MulMono(1, k - 1, w);
      CellBound(k - 1, k, w, u);
      assert Cell(r, w, k - 1, u) == Cell(t, w, k - 1, u);
      RemainderPassRowsMin(t, w, u, h, k - 1);
    } else {
      assert Cell(r, w, 0, u) == Min(Cell(t, w, 0, u), t[2 * (h * w) + u]);
    }
  }

  /** With no leftover row the remainder loop does nothing. */
  lemma RemainderPassEmpty(t: seq<int>, half: nat)
    requires 2 * half <= |t|
    ensures RemainderPass(t, half, 0) == t
  {
  }

  /** Halving 2h rows: the first pass alone keeps every column minimum. */
  lemma HalvedEvenKeepsColumnMin(s: seq<int>, h: nat, w: nat, u: nat)
    requires 1 <= h && 2 * (h * w) <= |s| && u < w
    ensures h * w <= |s| && (2 * h) * w <= |s|
    ensures RowsMin(RemainderPass(FirstPass(s, h * w), h * w, 0), w, u, 0, h) == RowsMin(s, w, u, 0, 2 * h)
  {
    assert 2 * (h * w) == (2 * h) * w;
    MulMono(h, 2 * h, w);
    RemainderPassEmpty(FirstPass(s, h * w), h * w);
    FirstPassRowsMin(s, w, u, h, h);
    RowsMinSplit(s, w, u, 0, h, 2 * h);
  }

  /** Halving 2h + 1 rows: the leftover row is folded into row 0. */
  lemma HalvedOddKeepsColumnMin(s: seq<int>, h: nat, w: nat, u: nat)
    requires 1 <= h && 2 * (h * w) + w <= |s| && u < w
    ensures h * w <= |s| && (2 * h + 1) * w <= |s|
    ensures RowsMin(RemainderPass(FirstPass(s, h * w), h * w, w), w, u, 0, h) == RowsMin(s, w, u, 0, 2 * h + 1)
  {
    assert 2 * (h * w) == (2 * h) * w;
    assert (2 * h + 1) * w == 2 * (h * w) + w;
    MulMono(h, 2 * h, w);
    var t := FirstPass(s, h * w);
    FirstPassRowsMin(s, w, u, h, h);
    RowsMinSplit(s, w, u, 0, h, 2 * h);
    RemainderPassRowsMin(t, w, u, h, h);
    assert t[2 * (h * w) + u] == s[(2 * h) * w + u];
    RowsMinSplit(s, w, u, 0, 2 * h, 2 * h + 1);
  }

  /** A halving round keeps every column's minimum over the live rows. */
  lemma HalvedKeepsColumnMin(s: seq<int>, n: nat, w: nat, u: nat)
    requires 2 <= n && n * w <= |s| && u < w
    ensures (n / 2) * w <= |s|
    ensures RowsMin(Halved(s, n, w), w, u, 0, n / 2) == RowsMin(s, w, u, 0, n)
  {
    var h := n / 2;
    var half := HalfSize(n, w);
    assert half == h * w;
    if n % 2 == 0 {
      assert n == 2 * h;
      assert n * w - 2 * half == 0;
      HalvedEvenKeepsColumnMin(s, h, w, u);
    } else {
      assert n == 2 * h + 1;
      assert n * w - 2 * half == w;
      HalvedOddKeepsColumnMin(s, h, w, u);
    }
  }

  /**
   * The first loop of a halving round, in place: cell u is written after
   * reading cells u and u + halfSize, and no cell at or above halfSize is
   * written, so every read sees the value the round started with.
   */
  method FoldHalves(a: array<int>, halfSize: nat)
    requires 2 * halfSize <= a.Length
    modifies a
    ensures a[..] == FirstPass(old(a[..]), halfSize)
  {
    ghost var s := a[..];
    var u := 0;
    while u < halfSize
      invariant 0 <= u <= halfSize
      invariant forall j | 0 <= j < u :: a[j] == Min(s[j], s[j + halfSize])
      invariant forall j | u <= j < a.Length :: a[j] == s[j]
    {
      a[u] := Min(a[u], a[u + halfSize]);
      u := u + 1;
    }
  }

  /**
   * The remainder loop of a halving round, in place: cell i is written after
   * reading cells i and 2 * halfSize + i, and the loop writes only cells
   * below remainder <= 2 * halfSize + i, so the leftover row is read intact.
   */
  method FoldRemainder(a: array<int>, halfSize: nat, remainder: nat)
    requires 2 * halfSize + remainder <= a.Length
    modifies a
    ensures a[..] == RemainderPass(old(a[..]), halfSize, remainder)
  {
    ghost var t := a[..];
    var i := 0;
    while i < remainder
      invariant 0 <= i <= remainder
      invariant forall j | 0 <= j < i :: a[j] == Min(t[j], t[2 * halfSize + j])
      invariant forall j | i <= j < a.Length :: a[j] == t[j]
    {
      a[i] := Min(a[i], a[halfSize * 2 + i]);
      i := i + 1;
    }
  }

  /** One round of the while loop of convert_new: equals the out-of-place Halved. */
  method HalveOnce(a: array<int>, numRows: nat, w: nat)
    requires 2 <= numRows && numRows * w <= a.Length
    modifies a
    ensures a[..] == Halved(old(a[..]), numRows, w)
  {
    var regionSize := numRows * w;
    var halfRows := numRows / 2;
    var halfSize := halfRows * w;
    assert halfSize == HalfSize(numRows, w);
    var remainder := regionSize - halfSize * 2;
    FoldHalves(a, halfSize);
    FoldRemainder(a, halfSize, remainder);
  }

  /** The while loop of convert_new: halve until one row holds the column minima. */
  method ReduceBand(a: array<int>, w: nat, rows: nat)
    requires 1 <= rows && rows * w <= a.Length
    modifies a
    ensures forall u | 0 <= u < w :: a[u] == RowsMin(old(a[..]), w, u, 0, rows)
  {
    ghost var s0 := a[..];
    var numRows := rows;
    while numRows > 1
      invariant 1 <= numRows <= rows
      invariant numRows * w <= a.Length
      invariant forall u | 0 <= u < w :: RowsMin(a[..], w, u, 0, numRows) == RowsMin(s0, w, u, 0, rows)
      decreases numRows
    {
      ghost var prev := a[..];
      HalveOnce(a, numRows, w);
      forall u | 0 <= u < w
        ensures RowsMin(a[..], w, u, 0, numRows / 2) == RowsMin(s0, w, u, 0, rows)
      {
        HalvedKeepsColumnMin(prev, numRows, w, u);
      }
      MulMono(numRows / 2, numRows, w);
      numRows := numRows / 2;
    }
    forall u | 0 <= u < w
      ensures a[u] == RowsMin(s0, w, u, 0, rows)
    {
      assert RowsMin(a[..], w, u, 0, 1) == a[u];
    }
  }

  // ---------------------------------------------------------------------------
  // Scatter into scan bins
  // ---------------------------------------------------------------------------

  /** Every bin holds NaN, as convert_msg initialises the scan. */
  predicate AllNone(bins: seq<Option<real>>) {
    forall b | 0 <= b < |bins| :: bins[b].None?
  }

  /** The first k column-to-bin indices all name a bin. */
  predicate IndicesFit(indices: seq<nat>, k: nat, bins: nat) {
    k <= |indices| && forall u | 0 <= u < k :: indices[u] < bins
  }

  /**
   * The range a reduced column contributes, if any: raw_range = ratio * depth
   * is admitted only strictly below max_range, and toMeters takes the
   * truncated 16-bit value of raw_range.
   */
  function AdmittedRange(depth: int, ratio: real, maxRange: int): (r: Option<real>)
    ensures r.Some? <==> ratio * depth as real < maxRange as real
  {
    var raw := ratio * depth as real;
    if raw < maxRange as real then Some(DepthTraits.ToMeters(DepthTraits.Trunc(raw))) else None
  }

  /** A closer depth is admitted whenever a farther one is, and with no larger range. */
  lemma AdmittedRangeMonotone(d1: int, d2: int, ratio: real, maxRange: int)
    requires d1 <= d2 && 0.0 <= ratio
    requires AdmittedRange(d2, ratio, maxRange).Some?
    ensures AdmittedRange(d1, ratio, maxRange).Some?
    ensures AdmittedRange(d1, ratio, maxRange).value <= AdmittedRange(d2, ratio, maxRange).value
  {
    assert ratio * (d2 - d1) as real >= 0.0;
    assert ratio * d1 as real <= ratio * d2 as real;
    DepthTraits.TruncMonotone(ratio * d1 as real, ratio * d2 as real);
  }

  /** The float comparison cur_ind_range < range: false whenever the bin is NaN. */
  predicate Below(x: Option<real>, r: real) {
    x.Some? && x.value < r
  }

  /** Write a range into bin b unless the bin already holds a strictly smaller one. */
  function Place(bins: seq<Option<real>>, b: nat, r: real): (t: seq<Option<real>>)
    requires b < |bins|
    ensures |t| == |bins|
    ensures t[b].Some? && (bins[b].Some? && bins[b].value < r ==> t[b] == bins[b])
    ensures !Below(bins[b], r) ==> t[b] == Some(r)
    ensures forall c | 0 <= c < |bins| && c != b :: t[c] == bins[c]
  {
    if Below(bins[b], r) then bins else bins[b := Some(r)]
  }

  /** The scan after the scatter loop has processed columns 0 .. k - 1; a bin no such column maps to keeps its value. */
  function Scattered(bins: seq<Option<real>>, depths: seq<int>, ratios: seq<real>, indices: seq<nat>, maxRange: int, k: nat): (r: seq<Option<real>>)
    requires k <= |depths| && k <= |ratios| && IndicesFit(indices, k, |bins|)
    ensures |r| == |bins|
    ensures forall c | 0 <= c < |bins| && (forall u | 0 <= u < k :: indices[u] != c) :: r[c] == bins[c]
    decreases k
  {
    if k == 0 then bins
    else
      var prev := Scattered(bins, depths, ratios, indices, maxRange, k - 1);
      match AdmittedRange(depths[k - 1], ratios[k - 1], maxRange)
      case None => prev
      case Some(range) => Place(prev, indices[k - 1], range)
  }

  /** A bin of a NaN-initialised scan stays NaN exactly when no admitted column maps to it. */
  lemma {:induction false} ScatterBinEmpty(bins: seq<Option<real>>, depths: seq<int>, ratios: seq<real>, indices: seq<nat>, maxRange: int, k: nat, b: nat)
    requires k <= |depths| && k <= |ratios| && IndicesFit(indices, k, |bins|)
    requires AllNone(bins) && b < |bins|
    ensures Scattered(bins, depths, ratios, indices, maxRange, k)[b].None?
        <==> forall u | 0 <= u < k && indices[u] == b :: AdmittedRange(depths[u], ratios[u], maxRange).None?
    decreases k
  {
    if k > 0 {
      ScatterBinEmpty(bins, depths, ratios, indices, maxRange, k - 1, b);
    }
  }

  /** A filled bin holds no more than any admitted range of a column mapped to it. */
  lemma {:induction false} ScatterBinIsMinimal(bins: seq<Option<real>>, depths: seq<int>, ratios: seq<real>, indices: seq<nat>, maxRange: int, k: nat, b: nat, u: nat)
    requires k <= |depths| && k <= |ratios| && IndicesFit(indices, k, |bins|)
    requires AllNone(bins) && b < |bins|
    requires u < k && indices[u] == b && AdmittedRange(depths[u], ratios[u], maxRange).Some?
    ensures Scattered(bins, depths, ratios, indices, maxRange, k)[b].Some?
    ensures Scattered(bins, depths, ratios, indices, maxRange, k)[b].value <= AdmittedRange(depths[u], ratios[u], maxRange).value
    decreases k
  {
    if u < k - 1 {
      ScatterBinIsMinimal(bins, depths, ratios, indices, maxRange, k - 1, b, u);
    }
  }

  /** A filled bin holds the admitted range of some column mapped to it. */
  lemma {:induction false} ScatterBinIsAttained(bins: seq<Option<real>>, depths: seq<int>, ratios: seq<real>, indices: seq<nat>, maxRange: int, k: nat, b: nat) returns (u: nat)
    requires k <= |depths| && k <= |ratios| && IndicesFit(indices, k, |bins|)
    requires AllNone(bins) && b < |bins|
    requires Scattered(bins, depths, ratios, indices, maxRange, k)[b].Some?
    ensures u < k && indices[u] == b
    ensures AdmittedRange(depths[u], ratios[u], maxRange) == Scattered(bins, depths, ratios, indices, maxRange, k)[b]
    decreases k
  {
    var prev := Scattered(bins, depths, ratios, indices, maxRange, k - 1);
    var here := AdmittedRange(depths[k - 1], ratios[k - 1], maxRange);
    if here.Some? && indices[k - 1] == b && !Below(prev[b], here.value) {
      u := k - 1;
    } else {
      u := ScatterBinIsAttained(bins, depths, ratios, indices, maxRange, k - 1, b);
    }
  }

  /** The scatter loop of convert_new over the first w reduced columns. */
  method ScatterBins(minDepths: array<int>, w: nat, ratios: seq<real>, indices: seq<nat>, maxRange: int, ranges: array<Option<real>>)
    requires w <= minDepths.Length && w <= |ratios| && IndicesFit(indices, w, ranges.Length)
    modifies ranges
    ensures ranges[..] == Scattered(old(ranges[..]), minDepths[..w], ratios, indices, maxRange, w)
  {
    ghost var bins := ranges[..];
    ghost var depths := minDepths[..w];
    var u := 0;
    while u < w
      invariant 0 <= u <= w
      invariant ranges[..] == Scattered(bins, depths, ratios, indices, maxRange, u)
    {
      ghost var prev := ranges[..];
      var depth := minDepths[u];
      assert depth == depths[u];
      var index := indices[u];
      // raw_range = range_ratios[u] * depth, kept only below max_range
      var admitted := AdmittedRange(depth, ratios[u], maxRange);
      if admitted.Some? {
        var range := admitted.value;
        if ranges[index].Some? && ranges[index].value < range {
          assert Place(prev, index, range) == prev;
        } else {
          ranges[index] := Some(range);
          assert ranges[..] == prev[index := Some(range)];
        }
      }
      u := u + 1;
    }
  }

  // ---------------------------------------------------------------------------
  // convert_new
  // ---------------------------------------------------------------------------

  /** First image row of the band: the int conversion of cy - scan_height / 2 (integer halving). */
  function BandOffset(cy: real, scanHeight: nat): (r: int)
    ensures (scanHeight / 2) as real <= cy ==> 0 <= r && r as real <= cy - (scanHeight / 2) as real < r as real + 1.0
  {
    DepthTraits.Trunc(cy - (scanHeight / 2) as real)
  }

  /** The sentinel for rejected samples: fromMeters(range_max + 1). */
  function BigVal(rangeMax: real): int {
    DepthTraits.FromMeters(rangeMax + 1.0)
  }

  /** The per-column minima of the filtered band, i.e. min_depths[0 .. w - 1] after the reduction. */
  function ReducedColumns(data: seq<int>, w: nat, offset: nat, n: nat, rowLimits: seq<int>, minLims: seq<int>, bigVal: int): (r: seq<int>)
    requires 1 <= n && (offset + n) * w <= |data| && offset + n <= |rowLimits| && w <= |minLims|
    ensures |r| == w
  {
    ColumnMins(FilteredBand(data, w, offset, n, rowLimits, minLims, bigVal), w, n)
  }

  /** Sample (v, u) of the band lies strictly inside its row's safety limit and its column's min-depth limit. */
  predicate InsideLimits(data: seq<int>, w: nat, offset: nat, rowLimits: seq<int>, minLims: seq<int>, v: nat, u: nat)
    requires u < w && (offset + v) * w + u < |data| && offset + v < |rowLimits| && u < |minLims|
  {
    var depth := data[(offset + v) * w + u];
    depth < rowLimits[offset + v] && minLims[u] < depth
  }

  /** A reduced column is no larger than any of its samples inside the limits. */
  lemma ReducedColumnIsLowerBound(data: seq<int>, w: nat, offset: nat, n: nat, rowLimits: seq<int>, minLims: seq<int>, bigVal: int, u: nat, v: nat)
    requires 1 <= n && (offset + n) * w <= |data| && offset + n <= |rowLimits| && w <= |minLims|
    requires u < w && v < n
    ensures (offset + v) * w + u < |data|
    ensures InsideLimits(data, w, offset, rowLimits, minLims, v, u) ==>
              ReducedColumns(data, w, offset, n, rowLimits, minLims, bigVal)[u] <= data[(offset + v) * w + u]
  {
    var band := FilteredBand(data, w, offset, n, rowLimits, minLims, bigVal);
    FilteredBandAt(data, w, offset, n, rowLimits, minLims, bigVal, v, u);
    RowsMinIsLowerBound(band, w, u, 0, n, v);
  }

  /**
   * A reduced column is either the sentinel or the value of one of its
   * samples inside the limits; in particular it is the sentinel when no
   * sample of the column lies inside them.
   */
  lemma ReducedColumnIsAttained(data: seq<int>, w: nat, offset: nat, n: nat, rowLimits: seq<int>, minLims: seq<int>, bigVal: int, u: nat) returns (v: nat)
    requires 1 <= n && (offset + n) * w <= |data| && offset + n <= |rowLimits| && w <= |minLims|
    requires u < w
    ensures v < n && (offset + v) * w + u < |data|
    ensures var m := ReducedColumns(data, w, offset, n, rowLimits, minLims, bigVal)[u];
            m == bigVal || (InsideLimits(data, w, offset, rowLimits, minLims, v, u) && m == Sample(data, w, offset + v, u))
  {
    var band := FilteredBand(data, w, offset, n, rowLimits, minLims, bigVal);
    v := RowsMinIsAttained(band, w, u, 0, n);
    FilteredBandAt(data, w, offset, n, rowLimits, minLims, bigVal, v, u);
  }

  /** The sentinel fromMeters(range_max + 1) is never admitted: its raw range is at least 1000 units past max_range. */
  lemma SentinelNeverAdmitted(rangeMax: real, ratio: real)
    requires 0.0 <= rangeMax && 1.0 <= ratio
    requires DepthTraits.IsU16(BigVal(rangeMax))
    ensures AdmittedRange(BigVal(rangeMax), ratio, DepthTraits.FromMeters(rangeMax)).None?
  {
    DepthTraits.FromMetersPlusOneMetre(rangeMax);
    var big := BigVal(rangeMax) as real;
    assert 0.0 <= big;
    assert (ratio - 1.0) * big >= 0.0;
    assert ratio * big >= big;
  }

  /** A column with no sample inside the limits contributes nothing to the scan. */
  lemma RejectedColumnNeverContributes(data: seq<int>, w: nat, offset: nat, n: nat, rowLimits: seq<int>, minLims: seq<int>, rangeMax: real, ratio: real, u: nat)
    requires 1 <= n && (offset + n) * w <= |data| && offset + n <= |rowLimits| && w <= |minLims|
    requires DepthTraits.IsU16(BigVal(rangeMax))
    requires u < w && 0.0 <= rangeMax && 1.0 <= ratio
    requires forall v | 0 <= v < n ::
               (offset + v) * w + u < |data| && !InsideLimits(data, w, offset, rowLimits, minLims, v, u)
    ensures AdmittedRange(ReducedColumns(data, w, offset, n, rowLimits, minLims, BigVal(rangeMax))[u], ratio,
                          DepthTraits.FromMeters(rangeMax)).None?
  {
    var v := ReducedColumnIsAttained(data, w, offset, n, rowLimits, minLims, BigVal(rangeMax), u);
    SentinelNeverAdmitted(rangeMax, ratio);
  }

  /**
   * Sample (v, u) of the band contributes to the scan: it lies in the
   * buffers, inside the limits, and its raw range is admitted.
   */
  predicate Contributes(data: seq<int>, w: nat, offset: nat, rowLimits: seq<int>, minLims: seq<int>,
                        ratios: seq<real>, maxRange: int, v: nat, u: nat)
  {
    && u < w && (offset + v) * w + u < |data| && offset + v < |rowLimits| && u < |minLims| && u < |ratios|
    && InsideLimits(data, w, offset, rowLimits, minLims, v, u)
    && AdmittedRange(Sample(data, w, offset + v, u), ratios[u], maxRange).Some?
  }

  /**
   * The reduced column of a column with a contributing sample is itself
   * admitted, with a range no larger than the sample's.
   */
  lemma ContributingColumnIsAdmitted(data: seq<int>, w: nat, offset: nat, n: nat, rowLimits: seq<int>, minLims: seq<int>,
                                     bigVal: int, ratios: seq<real>, maxRange: int, u: nat, v: nat)
    requires 1 <= n && (offset + n) * w <= |data| && offset + n <= |rowLimits| && w <= |minLims|
    requires w <= |ratios| && u < w && v < n && 0.0 <= ratios[u]
    requires Contributes(data, w, offset, rowLimits, minLims, ratios, maxRange, v, u)
    ensures AdmittedRange(ReducedColumns(data, w, offset, n, rowLimits, minLims, bigVal)[u], ratios[u], maxRange).Some?
    ensures AdmittedRange(ReducedColumns(data, w, offset, n, rowLimits, minLims, bigVal)[u], ratios[u], maxRange).value
         <= AdmittedRange(Sample(data, w, offset + v, u), ratios[u], maxRange).value
  {
    var m := ReducedColumns(data, w, offset, n, rowLimits, minLims, bigVal)[u];
    var d := Sample(data, w, offset + v, u);
    ReducedColumnIsLowerBound(data, w, offset, n, rowLimits, minLims, bigVal, u, v);
    assert m <= d;
    assert AdmittedRange(d, ratios[u], maxRange).Some?;
    AdmittedRangeMonotone(m, d, ratios[u], maxRange);
  }

  /**
   * What convert_new needs of its inputs to scan a band of n rows from row
   * offset: the band inside the image and the row limits, a min-depth limit
   * and a ratio of at least 1 per column, every column mapped to a bin of an
   * all-NaN scan.
   */
  predicate BandReady(data: seq<int>, w: nat, offset: nat, n: nat, rowLimits: seq<int>, minLims: seq<int>,
                      bins: seq<Option<real>>, ratios: seq<real>, indices: seq<nat>)
  {
    && 1 <= n && (offset + n) * w <= |data| && offset + n <= |rowLimits| && w <= |minLims|
    && w <= |ratios| && (forall k | 0 <= k < w :: 1.0 <= ratios[k])
    && IndicesFit(indices, w, |bins|) && AllNone(bins)
  }

  /** A bin filled from the reduced band holds the range of a contributing sample of a column mapped to it. */
  lemma BandBinIsAttained(data: seq<int>, w: nat, offset: nat, n: nat, rowLimits: seq<int>, minLims: seq<int>,
                          bins: seq<Option<real>>, ratios: seq<real>, indices: seq<nat>, rangeMax: real, b: nat)
    returns (u: nat, v: nat)
    requires BandReady(data, w, offset, n, rowLimits, minLims, bins, ratios, indices) && b < |bins| && 0.0 <= rangeMax
    requires DepthTraits.IsU16(BigVal(rangeMax))
    requires Scattered(bins, ReducedColumns(data, w, offset, n, rowLimits, minLims, BigVal(rangeMax)),
                       ratios, indices, DepthTraits.FromMeters(rangeMax), w)[b].Some?
    ensures u < w && v < n && indices[u] == b
    ensures Contributes(data, w, offset, rowLimits, minLims, ratios, DepthTraits.FromMeters(rangeMax), v, u)
    ensures AdmittedRange(Sample(data, w, offset + v, u), ratios[u], DepthTraits.FromMeters(rangeMax))
         == Scattered(bins, ReducedColumns(data, w, offset, n, rowLimits, minLims, BigVal(rangeMax)),
                      ratios, indices, DepthTraits.FromMeters(rangeMax), w)[b]
  {
    var cols := ReducedColumns(data, w, offset, n, rowLimits, minLims, BigVal(rangeMax));
    u := ScatterBinIsAttained(bins, cols, ratios, indices, DepthTraits.FromMeters(rangeMax), w, b);
    SentinelNeverAdmitted(rangeMax, ratios[u]);
    v := ReducedColumnIsAttained(data, w, offset, n, rowLimits, minLims, BigVal(rangeMax), u);
  }

  /** A bin filled from the reduced band stays empty exactly when no sample of a column mapped to it contributes. */
  lemma BandBinEmpty(data: seq<int>, w: nat, offset: nat, n: nat, rowLimits: seq<int>, minLims: seq<int>,
                     bins: seq<Option<real>>, ratios: seq<real>, indices: seq<nat>, rangeMax: real, b: nat)
    requires BandReady(data, w, offset, n, rowLimits, minLims, bins, ratios, indices) && b < |bins| && 0.0 <= rangeMax
    requires DepthTraits.IsU16(BigVal(rangeMax))
    ensures Scattered(bins, ReducedColumns(data, w, offset, n, rowLimits, minLims, BigVal(rangeMax)),
                      ratios, indices, DepthTraits.FromMeters(rangeMax), w)[b].None?
        <==> forall u, v | 0 <= u < w && 0 <= v < n && indices[u] == b ::
               !Contributes(data, w, offset, rowLimits, minLims, ratios, DepthTraits.FromMeters(rangeMax), v, u)
  {
    var maxRange := DepthTraits.FromMeters(rangeMax);
    var cols := ReducedColumns(data, w, offset, n, rowLimits, minLims, BigVal(rangeMax));
    ScatterBinEmpty(bins, cols, ratios, indices, maxRange, w, b);
    if Scattered(bins, cols, ratios, indices, maxRange, w)[b].None? {
      forall u, v | 0 <= u < w && 0 <= v < n && indices[u] == b
        ensures !Contributes(data, w, offset, rowLimits, minLims, ratios, maxRange, v, u)
      {
        if Contributes(data, w, offset, rowLimits, minLims, ratios, maxRange, v, u) {
          ContributingColumnIsAdmitted(data, w, offset, n, rowLimits, minLims, BigVal(rangeMax), ratios, maxRange, u, v);
          assert false;
        }
      }
    } else {
      var u, v := BandBinIsAttained(data, w, offset, n, rowLimits, minLims, bins, ratios, indices, rangeMax, b);
    }
  }

  /** A bin filled from the reduced band holds no larger a range than any contributing sample of a column mapped to it. */
  lemma BandBinIsClosest(data: seq<int>, w: nat, offset: nat, n: nat, rowLimits: seq<int>, minLims: seq<int>,
                         bins: seq<Option<real>>, ratios: seq<real>, indices: seq<nat>, rangeMax: real, b: nat, u: nat, v: nat)
    requires BandReady(data, w, offset, n, rowLimits, minLims, bins, ratios, indices) && b < |bins|
    requires u < w && v < n && indices[u] == b
    requires Contributes(data, w, offset, rowLimits, minLims, ratios, DepthTraits.FromMeters(rangeMax), v, u)
    ensures Scattered(bins, ReducedColumns(data, w, offset, n, rowLimits, minLims, BigVal(rangeMax)),
                      ratios, indices, DepthTraits.FromMeters(rangeMax), w)[b].Some?
    ensures Scattered(bins, ReducedColumns(data, w, offset, n, rowLimits, minLims, BigVal(rangeMax)),
                      ratios, indices, DepthTraits.FromMeters(rangeMax), w)[b].value
         <= AdmittedRange(Sample(data, w, offset + v, u), ratios[u], DepthTraits.FromMeters(rangeMax)).value
  {
    var maxRange := DepthTraits.FromMeters(rangeMax);
    var cols := ReducedColumns(data, w, offset, n, rowLimits, minLims, BigVal(rangeMax));
    ContributingColumnIsAdmitted(data, w, offset, n, rowLimits, minLims, BigVal(rangeMax), ratios, maxRange, u, v);
    ScatterBinIsMinimal(bins, cols, ratios, indices, maxRange, w, b, u);
  }

  /** The filter and the halving loop of convert_new: min_depths[0 .. w - 1] ends as the reduced columns. */
  method FilterAndReduce(data: seq<int>, w: nat, offset: nat, n: nat, rowLimits: seq<int>, minLims: seq<int>,
                         bigVal: int, buf: array<int>)
    requires 1 <= n && (offset + n) * w <= |data| && offset + n <= |rowLimits| && w <= |minLims|
    requires buf.Length == n * w
    modifies buf
    ensures w <= buf.Length
    ensures buf[..w] == ReducedColumns(data, w, offset, n, rowLimits, minLims, bigVal)
  {
    FilterBand(data, w, offset, n, rowLimits, minLims, bigVal, buf);
    ghost var band := buf[..];
    assert band == FilteredBand(data, w, offset, n, rowLimits, minLims, bigVal);
    ReduceBand(buf, w, n);
    MulMono(1, n, w);
    assert buf[..w] == ColumnMins(band, w, n);
  }

  /**
   * convert_new on a 16UC1 frame whose rows are w samples apart: filter the
   * band around cy, reduce it to one row of column minima, scatter the
   * admitted ranges into the scan.
   */
  method ConvertNew(data: seq<int>, w: nat, h: nat, cy: real, scanHeight: nat,
                    rowLimits: seq<int>, minLims: seq<int>, ratios: seq<real>, indices: seq<nat>,
                    rangeMax: real, buf: array<int>, ranges: array<Option<real>>)
    requires |data| == w * h && |rowLimits| == h && |minLims| == w && |ratios| == w
    requires IndicesFit(indices, w, ranges.Length)
    requires 1 <= scanHeight && 0 <= BandOffset(cy, scanHeight) && BandOffset(cy, scanHeight) + scanHeight <= h
    requires buf.Length == scanHeight * w
    modifies buf, ranges
    ensures (BandOffset(cy, scanHeight) + scanHeight) * w <= |data|
    ensures ranges[..] == Scattered(old(ranges[..]),
                                    ReducedColumns(data, w, BandOffset(cy, scanHeight), scanHeight, rowLimits, minLims, BigVal(rangeMax)),
                                    ratios, indices, DepthTraits.FromMeters(rangeMax), w)
  {
    var offset := BandOffset(cy, scanHeight);
    BandInside(offset + scanHeight, h, w);
    var bigVal := DepthTraits.FromMeters(rangeMax + 1.0);
    FilterAndReduce(data, w, offset, scanHeight, rowLimits, minLims, bigVal, buf);
    var maxRange := DepthTraits.FromMeters(rangeMax);
    ScatterBins(buf, w, ratios, indices, maxRange, ranges);
  }
}

=== FILE: row_major.dfy ===
/**
 * Row-major layout of an image or a band of rows: the cell in row v and
 * column u of a buffer with w columns sits at index v * w + u (the image
 * stride is taken to be the width).
 */
module RowMajor {

  lemma {:induction false} MulMono(a: nat, b: nat, w: nat)
    requires a <= b
    ensures a * w <= b * w
    decreases b - a
  {
    if a < b {
      MulMono(a, b - 1, w);
      assert (b - 1) * w + w == b * w;
    }
  }

  lemma MulAddDistrib(a: nat, b: nat, w: nat)
    ensures (a + b) * w == a * w + b * w
  {
  }

  lemma MulAssoc2(a: nat, w: nat)
    ensures (2 * a) * w == 2 * (a * w)
  {
  }

  /** A cell of row v < n lies inside the first n rows. */
  lemma CellBound(v: nat, n: nat, w: nat, u: nat)
    requires v < n && u < w
    ensures v * w + u < n * w
  {
    MulMono(v + 1, n, w);
    assert (v + 1) * w == v * w + w;
  }

  /** Rows lo .. hi - 1 of an image of h rows lie inside its w * h samples. */
  lemma BandInside(hi: nat, h: nat, w: nat)
    requires hi <= h
    ensures hi * w <= w * h
  {
    MulMono(hi, h, w);
    assert h * w == w * h;
  }

  /**
   * The sample in row v, column u of buffer s, for a cell inside s. Cell is
   * the source's indexing and is used where the bound is already in force;
   * Sample below is its total twin, for contracts that quantify over cells
   * and state the bound separately, so that their well-formedness need not
   * prove it again.
   */
  function Cell(s: seq<int>, w: nat, v: nat, u: nat): int
    requires u < w && v * w + u < |s|
  {
    s[v * w + u]
  }

  /** The sample in row v, column u of buffer s, or 0 when that cell lies outside s. */
  function Sample(s: seq<int>, w: nat, v: nat, u: nat): int {
    if v * w + u < |s| then s[v * w + u] else 0
  }
}

=== FILE: scan_spec.dfy ===
/**
 * ScanSpec: what convert_msg answers for a frame, given the refreshed cache
 * and the settings: the scan height check, the scan header and the ranges
 * convert_new computes, and what each bin of those ranges means.
 */
module ScanSpec {
  import opened Wrappers
  import opened RowMajor
  import DepthTraits
  import opened ConversionCache
  import FrameReducer

  /** The laser scan message; the header stamp is not modelled, only its frame id. */
  datatype LaserScan = LaserScan(frameId: string, angleMin: real, angleMax: real, angleIncrement: real,
                                 timeIncrement: real, scanTime: real, rangeMin: real, rangeMax: real,
                                 ranges: seq<Option<real>>)

  /** The two runtime errors convert_msg throws. */
  datatype ConvError = ScanHeightTooLarge(scanHeight: nat) | UnsupportedEncoding(encoding: string)

  // ---------------------------------------------------------------------------
  // The scan height check
  // ---------------------------------------------------------------------------

  /** The check of convert_msg as written: scan_height / 2 (integer halving) fits above and below cy. */
  function HeightCheckAsWritten(scanHeight: nat, cy: real, h: nat): bool {
    !((scanHeight / 2) as real > cy || (scanHeight / 2) as real > h as real - cy)
  }

  /** The corrected check: the band convert_new reads is non-empty and lies inside the image. */
  function BandFits(scanHeight: nat, cy: real, h: nat): (r: bool)
    ensures r ==> 1 <= scanHeight && 0 <= FrameReducer.BandOffset(cy, scanHeight)
                  && FrameReducer.BandOffset(cy, scanHeight) + scanHeight <= h
  {
    HeightCheckAsWritten(scanHeight, cy, h) && 1 <= scanHeight && FrameReducer.BandOffset(cy, scanHeight) + scanHeight <= h
  }

  /** Concrete overrun of the check as written: height 3, cy = 2, scan_height 3 passes, and the band is rows 1 .. 3. */
  lemma OddBandOverrunAsWritten()
    ensures HeightCheckAsWritten(3, 2.0, 3)
    ensures FrameReducer.BandOffset(2.0, 3) == 1 && FrameReducer.BandOffset(2.0, 3) + 3 > 3
    ensures !BandFits(3, 2.0, 3)
  {
    assert (2.0 - 1.0).Floor == 1;
  }

  /** scan_height 0 passes the check as written for every cy inside the image, though convert_new then reads an empty buffer. */
  lemma ZeroHeightPassesAsWritten(cy: real, h: nat)
    requires 0.0 <= cy <= h as real
    ensures HeightCheckAsWritten(0, cy, h) && !BandFits(0, cy, h)
  {
  }

  /** For an even scan height the check as written is exact: it passes precisely when the band fits. */
  lemma EvenHeightCheckIsExact(scanHeight: nat, cy: real, h: nat)
    requires 2 <= scanHeight && scanHeight % 2 == 0
    ensures BandFits(scanHeight, cy, h) <==> HeightCheckAsWritten(scanHeight, cy, h)
  {
    var k := scanHeight / 2;
    if HeightCheckAsWritten(scanHeight, cy, h) {
      var offset := FrameReducer.BandOffset(cy, scanHeight);
      assert offset as real <= cy - k as real;
      assert (offset + scanHeight) as real <= cy + k as real <= h as real;
    }
  }

  /**
   * For an odd scan height the check as written is too weak exactly when cy
   * sits scan_height / 2 rows above the bottom of the image: the band then
   * ends one row past it.
   */
  lemma OddHeightCheckGap(scanHeight: nat, cy: real, h: nat)
    requires scanHeight % 2 == 1
    ensures HeightCheckAsWritten(scanHeight, cy, h) && !BandFits(scanHeight, cy, h)
        <==> (scanHeight / 2) as real <= cy && cy == h as real - (scanHeight / 2) as real
  {
    var k := scanHeight / 2;
    assert scanHeight == 2 * k + 1;
    if HeightCheckAsWritten(scanHeight, cy, h) {
      var offset := FrameReducer.BandOffset(cy, scanHeight);
      assert offset as real <= cy - k as real < offset as real + 1.0;
      if cy < h as real - k as real {
        assert offset as real < h as real - (2 * k) as real;
        assert offset < h - 2 * k;
      } else {
        assert cy == h as real - k as real;
        assert (offset + scanHeight) as real > cy - k as real + (2 * k) as real;
      }
    }
  }

  // ---------------------------------------------------------------------------
  // What convert_msg returns
  // ---------------------------------------------------------------------------

  /** A scan of w bins, all NaN, as ranges.assign(width, NaN) leaves it. */
  function NaNs(w: nat): (r: seq<Option<real>>)
    ensures |r| == w && FrameReducer.AllNone(r)
  {
    seq(w, _ => None)
  }

  /** The ranges convert_new computes for a 16UC1 frame whose band fits. */
  function FrameRanges(frame: Image, cy: real, c: Cache, s: Settings): (r: seq<Option<real>>)
    requires |frame.data| == frame.width * frame.height && TablesReady(c, frame.width, frame.height)
    requires BandFits(s.scanHeight, cy, frame.height)
    ensures |r| == frame.width
  {
    var offset := FrameReducer.BandOffset(cy, s.scanHeight);
    assert (offset + s.scanHeight) * frame.width <= |frame.data| by {
      BandInside(offset + s.scanHeight, frame.height, frame.width);
    }
    FrameReducer.Scattered(NaNs(frame.width),
                           FrameReducer.ReducedColumns(frame.data, frame.width, offset, s.scanHeight,
                                                       c.rowLimits, c.minDepthLimits, FrameReducer.BigVal(s.rangeMax)),
                           c.rangeRatios, c.indices, DepthTraits.FromMeters(s.rangeMax), frame.width)
  }

  /**
   * The band of a frame that passes the height check, with ready tables, lies
   * inside the frame and the row-limit table; every column has a ratio of at
   * least 1 and a bin below width; and the bins start as "no return".
   */
  lemma FrameRangesScatterBand(frame: Image, cy: real, c: Cache, s: Settings)
    requires |frame.data| == frame.width * frame.height && TablesReady(c, frame.width, frame.height)
    requires BandFits(s.scanHeight, cy, frame.height)
    ensures var offset := FrameReducer.BandOffset(cy, s.scanHeight);
            && 0 <= offset
            && FrameReducer.BandReady(frame.data, frame.width, offset, s.scanHeight, c.rowLimits, c.minDepthLimits,
                                      NaNs(frame.width), c.rangeRatios, c.indices)
  {
    var offset := FrameReducer.BandOffset(cy, s.scanHeight);
    BandInside(offset + s.scanHeight, frame.height, frame.width);
  }

  /** The scan fields convert_msg fills before the ranges. */
  function ScanHeader(frame: Image, c: Cache, s: Settings, scanTime: real, outputFrameId: string): (r: LaserScan)
    requires 2 <= frame.width
  {
    LaserScan(if |outputFrameId| > 0 then outputFrameId else frame.frameId,
              c.angleMin, c.angleMax, (c.angleMax - c.angleMin) / (frame.width - 1) as real,
              0.0, scanTime, s.rangeMin, s.rangeMax, [])
  }

  /** The angle increment spreads the scan's angular extent evenly over the width - 1 gaps between the bins. */
  lemma AngleIncrementSpansScan(frame: Image, c: Cache, s: Settings, scanTime: real, outputFrameId: string)
    requires 2 <= frame.width
    ensures var scan := ScanHeader(frame, c, s, scanTime, outputFrameId);
            scan.angleIncrement * (frame.width - 1) as real == scan.angleMax - scan.angleMin
  {
    var gaps := (frame.width - 1) as real;
    assert gaps != 0.0;
    var inc := (c.angleMax - c.angleMin) / gaps;
    assert inc * gaps == c.angleMax - c.angleMin;
  }

  /**
   * convert_msg after updateCache: the scan height error first (for every
   * encoding), then the encoding error, else the scan with the ranges of
   * convert_new.
   */
  function ScanOf(frame: Image, cy: real, c: Cache, s: Settings, scanTime: real, outputFrameId: string): (r: Result<LaserScan, ConvError>)
    requires 2 <= frame.width && |frame.data| == frame.width * frame.height && frame.encoding != Float32
    requires frame.encoding == Mono16 ==> TablesReady(c, frame.width, frame.height)
    ensures !BandFits(s.scanHeight, cy, frame.height) ==> r == Failure(ScanHeightTooLarge(s.scanHeight))
    ensures BandFits(s.scanHeight, cy, frame.height) && frame.encoding.Unsupported? ==>
              r == Failure(UnsupportedEncoding(frame.encoding.name))
    ensures r.Success? ==> frame.encoding == Mono16 && |r.value.ranges| == frame.width
    ensures BandFits(s.scanHeight, cy, frame.height) && frame.encoding == Mono16 ==>
              r.Success? && r.value.ranges == FrameRanges(frame, cy, c, s)
  {
    if !BandFits(s.scanHeight, cy, frame.height) then Failure(ScanHeightTooLarge(s.scanHeight))
    else match frame.encoding
      case Unsupported(name) => Failure(UnsupportedEncoding(name))
      case Mono16 => Success(ScanHeader(frame, c, s, scanTime, outputFrameId).(ranges := FrameRanges(frame, cy, c, s)))
  }

  /**
   * Sample (band row v, column u) is a return: it lies strictly inside its
   * row's safety limit and its column's minimum-depth limit, and its raw
   * range is below max_range.
   */
  predicate IsReturn(frame: Image, cy: real, c: Cache, s: Settings, v: nat, u: nat) {
    var offset := FrameReducer.BandOffset(cy, s.scanHeight);
    && 0 <= offset
    && FrameReducer.Contributes(frame.data, frame.width, offset, c.rowLimits, c.minDepthLimits, c.rangeRatios,
                                DepthTraits.FromMeters(s.rangeMax), v, u)
  }

  /** The range a return contributes, in metres. */
  function ReturnRange(frame: Image, cy: real, c: Cache, s: Settings, v: nat, u: nat): real
    requires IsReturn(frame, cy, c, s, v, u)
  {
    var row := FrameReducer.BandOffset(cy, s.scanHeight) + v;
    FrameReducer.AdmittedRange(Sample(frame.data, frame.width, row, u), c.rangeRatios[u], DepthTraits.FromMeters(s.rangeMax)).value
  }

  /**
   * A bin of the scan is NaN exactly when no column mapped to it has a
   * return in the band.
   */
  lemma ScanBinIsNaNExactly(frame: Image, cy: real, c: Cache, s: Settings, b: nat)
    requires |frame.data| == frame.width * frame.height && TablesReady(c, frame.width, frame.height)
    requires DepthTraits.IsU16(FrameReducer.BigVal(s.rangeMax))
    requires BandFits(s.scanHeight, cy, frame.height) && 0.0 <= s.rangeMax && b < frame.width
    ensures FrameRanges(frame, cy, c, s)[b].None?
        <==> forall u, v | 0 <= u < frame.width && 0 <= v < s.scanHeight && c.indices[u] == b :: !IsReturn(frame, cy, c, s, v, u)
  {
    var w := frame.width;
    var offset := FrameReducer.BandOffset(cy, s.scanHeight);
    FrameRangesScatterBand(frame, cy, c, s);
    var maxRange := DepthTraits.FromMeters(s.rangeMax);
    FrameReducer.BandBinEmpty(frame.data, w, offset, s.scanHeight, c.rowLimits, c.minDepthLimits,
                              NaNs(w), c.rangeRatios, c.indices, s.rangeMax, b);
    if FrameRanges(frame, cy, c, s)[b].None? {
      forall u, v | 0 <= u < w && 0 <= v < s.scanHeight && c.indices[u] == b
        ensures !IsReturn(frame, cy, c, s, v, u)
      {
        assert !FrameReducer.Contributes(frame.data, w, offset, c.rowLimits, c.minDepthLimits, c.rangeRatios, maxRange, v, u);
      }
    } else {
      var u, v :| 0 <= u < w && 0 <= v < s.scanHeight && c.indices[u] == b
        && FrameReducer.Contributes(frame.data, w, offset, c.rowLimits, c.minDepthLimits, c.rangeRatios, maxRange, v, u);
      assert IsReturn(frame, cy, c, s, v, u);
    }
  }

  /** A filled bin holds the range of a return of some column mapped to it. */
  lemma ScanBinIsAttained(frame: Image, cy: real, c: Cache, s: Settings, b: nat) returns (u: nat, v: nat)
    requires |frame.data| == frame.width * frame.height && TablesReady(c, frame.width, frame.height)
    requires DepthTraits.IsU16(FrameReducer.BigVal(s.rangeMax))
    requires BandFits(s.scanHeight, cy, frame.height) && 0.0 <= s.rangeMax && b < frame.width
    requires FrameRanges(frame, cy, c, s)[b].Some?
    ensures u < frame.width && v < s.scanHeight && c.indices[u] == b && IsReturn(frame, cy, c, s, v, u)
    ensures FrameRanges(frame, cy, c, s)[b].value == ReturnRange(frame, cy, c, s, v, u)
  {
    var w := frame.width;
    var offset := FrameReducer.BandOffset(cy, s.scanHeight);
    FrameRangesScatterBand(frame, cy, c, s);
    u, v := FrameReducer.BandBinIsAttained(frame.data, w, offset, s.scanHeight, c.rowLimits, c.minDepthLimits,
                                           NaNs(w), c.rangeRatios, c.indices, s.rangeMax, b);
  }

  /** A filled bin is the closest: no return of a column mapped to it has a smaller range. */
  lemma ScanBinIsClosest(frame: Image, cy: real, c: Cache, s: Settings, b: nat, u: nat, v: nat)
    requires |frame.data| == frame.width * frame.height && TablesReady(c, frame.width, frame.height)
    requires BandFits(s.scanHeight, cy, frame.height) && b < frame.width
    requires u < frame.width && v < s.scanHeight && c.indices[u] == b && IsReturn(frame, cy, c, s, v, u)
    ensures FrameRanges(frame, cy, c, s)[b].Some?
    ensures FrameRanges(frame, cy, c, s)[b].value <= ReturnRange(frame, cy, c, s, v, u)
  {
    var w := frame.width;
    var offset := FrameReducer.BandOffset(cy, s.scanHeight);
    FrameRangesScatterBand(frame, cy, c, s);
    FrameReducer.BandBinIsClosest(frame.data, w, offset, s.scanHeight, c.rowLimits, c.minDepthLimits,
                                  NaNs(w), c.rangeRatios, c.indices, s.rangeMax, b, u, v);
  }
}

=== FILE: wrappers.dfy ===
/** Option and Result, used for "no return" bins and for the converter's error path. */
module Wrappers {

  datatype Option<+T> = None | Some(value: T)

  datatype Result<+R, +E> = Success(value: R) | Failure(error: E)
}
